=== FILE: README.md ===
# Bank cards: a Dafny model of the card domain

This project models the domain logic of the bank-card service:

- issuing cards to users;
- the 16-digit number check;
- the partial update of a card;
- expiry, applied lazily when a card is read and by a bulk sweep;
- the block, request-block and administrator status setters;
- filtered listings;
- masking and the entity/response mappings;
- transfers between two cards of one user, and a card's transaction history;
- the role-to-authority normalisation of the security principal;
- the exception-to-HTTP-status table.

The state is an immutable `Bank` record (module `Repository`):

- a map from card id to `Card` row;
- the ledger, a sequence of `CardTransaction` rows;
- the set of known users;
- the two identity sequences.

Every service operation is a pure function. It returns `Ok((state', answer))`, or `Err(e)` with the exception the Java code throws. The services are `@Transactional`, so an exception discards all changes made during the call. In the model an `Err` therefore carries no state, and the caller keeps the state it had.

Representation choices:

- Money (`BigDecimal`) is an exact `real`. This matches `compareTo`, `add` and `subtract`.
- Dates are day numbers. `LocalDate.now()` and `LocalDateTime.now()` are parameters (`today`, `now`).
- A Java field that can be `null`, and that the code branches on or dereferences, is an `Option`.
- `EncryptionUtil` becomes a `Cipher` value that holds two functions, `enc` and `dec`. `dec` returns `None` where decryption throws. Whenever the round trip is needed, it is assumed through the predicate `Crypto.Sound(c)` (`dec(enc(x)) == Some(x)`).
- Repository scans (`findAll`, `findAllByStatus`) return rows in an order the database chooses. That order is the parameter `order`. Lemmas about completeness require that `order` lists every stored id exactly once (`IsScanOrder`).

Modules follow the source packages:

- `Entities`: Card.java, CardTransaction.java and the status enum.
- `Errors`: the exception classes and their messages.
- `Crypto`: EncryptionUtil.
- `CardMapper`.
- `CardSpecification`.
- `Repository`: CardRepository and CardTransactionRepository.
- `CardService`.
- `TransferService`: CardTransactionService.
- `UserDetailsConfig`.
- `GlobalExceptionHandler`.

The model follows the code even where the code's own conventions point elsewhere. For example, CardMapper.java:51 encrypts the number on the way in and CardMapper.java:36 decrypts it on the way out, so every stored number is meant to be ciphertext. The code departs from such conventions as follows:

- No status transition table is enforced. `blockCard` and `requestCardBlock` succeed from any status, and the administrator sets any status.
- A transfer does not check that the amount is positive or that the two cards differ.
- The transaction timestamp is never assigned.
- The issuance duplicate check compares the plaintext number with the stored ciphertext.
- `updateCard` stores the number unencrypted.
- Decryption is called outside the masking `try`. A row that cannot be decrypted therefore makes `toDto` throw instead of degrading to `"****"`.

## Model

| member | source | states |
|---|---|---|
| `Entities.MaskedCardNumber` | src/main/java/example/bankcards/entity/Card.java:39-45 | The fallback `"****"` is returned exactly when the input is null or shorter than 4 characters. Otherwise the result has 19 characters: the prefix `"**** **** **** "` followed by the input's last four characters. |
| `Entities.MaskDependsOnlyOnLastFour` | src/main/java/example/bankcards/entity/Card.java:41 | Two numbers that share their last four characters mask identically. |
| `Entities.MaskExample` | src/main/java/example/bankcards/entity/Card.java:39-45 | Masking `1234567812345678` gives `**** **** **** 5678`; masking `"123"` and null both give `****`. |
| `Crypto.EncInjective` | src/main/java/example/bankcards/until/EncryptionUtil.java:20-41 | Under the round-trip assumption, equal ciphertexts come from equal plaintexts. |
| `CardMapper.ToEntity` | src/main/java/example/bankcards/config/mapper/CardMapper.java:48-60 | A null request or owner gives null. A null number makes encryption fail with "Error encrypting". Otherwise the result is an unsaved ACTIVE card with the encrypted number, the given owner and expiration, and the request balance or 0. |
| `CardMapper.ToDto` | src/main/java/example/bankcards/config/mapper/CardMapper.java:33-46 | The call fails exactly when the stored number does not decrypt. On success the number is masked after decryption; id, expiration and balance are copied; a null status or owner shows as null. |
| `CardMapper.ToOpenDto` | src/main/java/example/bankcards/config/mapper/CardMapper.java:20-31 | The full decrypted number is put in the masked field. The call succeeds only when decryption works and status and owner are non-null, because both are dereferenced. |
| `CardMapper.EntityThenDtoMasksRequestNumber` | src/main/java/example/bankcards/config/mapper/CardMapper.java:43-57 | Round trip: viewing a freshly mapped entity shows the request number masked, with status ACTIVE and the defaulted balance. The open view shows the number in full. |
| `CardSpecification.BuildSpec` | src/main/java/example/bankcards/service/impl/CardService.java:101-113 | The criteria chain always begins with the owner criterion. |
| `CardSpecification.BuildSpecMeansMatches` | src/main/java/example/bankcards/service/impl/CardService.java:101-117 | The chained criteria accept a card exactly when its owner matches and every non-null filter holds. An absent filter constrains nothing. |
| `CardSpecification.BoundsAreStrict` | src/main/java/example/bankcards/until/CardSpecification.java:12-30 | The balance bounds and the date cut-off are strict, and a null expiration date never passes the date criterion. |
| `Repository.SortDesc` | src/main/java/example/bankcards/repository/CardTransactionRepository.java:14 | `ORDER BY timestamp DESC` gives a permutation of its input, sorted newest first, with null timestamps first. |
| `Repository.Involving` | src/main/java/example/bankcards/repository/CardTransactionRepository.java:14 | The `WHERE from = id OR to = id` row filter keeps each involving row exactly as often as the ledger has it, and drops every other row. |
| `Repository.FindAllByCardId` | src/main/java/example/bankcards/repository/CardTransactionRepository.java:14-15 | Every returned row involves the card, and every ledger row involving it is returned. Multiplicities are preserved, so a self-transfer appears once. The result is sorted newest first. |
| `CardService.IsValidCardNumberFormat` | src/main/java/example/bankcards/service/impl/CardService.java:192-194 | A standalone executable form of the check: it answers true exactly when the predicate `ValidCardNumber` holds, that is, for a non-null string of 16 ASCII digits. The operations use the predicate directly. |
| `CardService.CardNumberExamples` | src/main/java/example/bankcards/service/impl/CardService.java:192-194 | `1234567812345678` is valid. A 3-digit number, a 17-digit number, a number containing a letter, and null are all invalid. |
| `CardService.CreateCard` | src/main/java/example/bankcards/service/impl/CardService.java:41-63 | The checks run in order: unknown owner, then malformed number, then a row already storing the given string. Each gives its own error and saves nothing. Otherwise exactly one ACTIVE card is added under the next id, with the number encrypted, and the response is the `toDto` view of that saved row. |
| `CardService.Issue` | src/main/java/example/bankcards/service/impl/CardService.java:57-62 | `toEntity`, `save`, then `toDto`. The new row is an ACTIVE card under the next id, holding the encrypted number. The response is the `toDto` view of the saved row. The call fails, with the decryption error, exactly when the stored ciphertext does not decrypt. |
| `CardService.CreateCardSucceeds` | src/main/java/example/bankcards/service/impl/CardService.java:41-63 | With a sound cipher, an issuance that passes the checks succeeds and shows the requested number masked. |
| `CardService.IssueTwiceAsWritten` | src/main/java/example/bankcards/service/impl/CardService.java:53-55 | As written, for any owner, any well-formed unused number whose ciphertext differs from it, and any sound cipher, issuing the number twice succeeds both times and leaves two rows with equal numbers. |
| `CardService.CreateTwiceAsWritten` | src/main/java/example/bankcards/service/impl/CardService.java:53-55 | As written, the same number can be issued twice: two rows end up with equal numbers. |
| `CardService.CreateCardIntended` | src/main/java/example/bankcards/service/impl/CardService.java:41-63 | Corrected issuance: the same checks in the same order, but the duplicate check looks up the encrypted number. Apart from a decryption failure, it succeeds exactly when the owner exists, the number is well formed and its encryption is not stored yet. It then issues as `Issue` does. |
| `CardService.CreateCardIntendedSucceeds` | src/main/java/example/bankcards/service/impl/CardService.java:41-63 | With a sound cipher, the corrected issuance succeeds whenever its checks pass, and shows the requested number masked. |
| `CardService.CreateCardIntendedKeepsNumbersUnique` | src/main/java/example/bankcards/service/impl/CardService.java:53-55 | Corrected issuance keeps stored numbers unique, keeps the state well formed, and refuses the same number a second time. |
| `CardService.UpdateCard` | src/main/java/example/bankcards/service/impl/CardService.java:66-90 | The card is looked up by id and owner; a missing card gives CardNotFoundOrAccessDenied. A present number that is malformed gives InvalidCardNumber. A well-formed number that differs from the stored string and is stored on some row gives CardAlreadyExists. The duplicate check is skipped when the number equals the stored string. The update succeeds exactly when none of these applies, and then stores the number as given. Each non-null field overwrites, and each null field keeps its value. |
| `CardService.UpdateCardIsPartial` | src/main/java/example/bankcards/service/impl/CardService.java:66-90 | Only the named card changes, and only the fields present in the request. Status and owner are kept. Repeating the update changes nothing further. |
| `CardService.UpdateThenReadAsWritten` | src/main/java/example/bankcards/service/impl/CardService.java:78 | As written, after a number update the next read fails to decrypt the stored plaintext. |
| `CardService.UpdateCardIntended` | src/main/java/example/bankcards/service/impl/CardService.java:66-90 | Corrected update with the same checks in the same order, but it compares and stores the encrypted number. It succeeds exactly when the card is found and the number is absent, or is valid and either encrypts to the stored value or is not stored anywhere. |
| `CardService.UpdateCardIntendedThenRead` | src/main/java/example/bankcards/service/impl/CardService.java:70-79 | After the corrected update, the next read succeeds and shows the new number masked. |
| `CardService.ExpireIfDue` | src/main/java/example/bankcards/service/impl/CardService.java:124-128 | An ACTIVE card whose date is strictly before today becomes EXPIRED, and nothing else about it changes. An ACTIVE card without a date throws a NullPointerException. Every other card is unchanged. |
| `CardService.ExpireIfDueIdempotent` | src/main/java/example/bankcards/service/impl/CardService.java:124-128 | Applying the expiry rule twice is applying it once. |
| `CardService.GetCardDetails` | src/main/java/example/bankcards/service/impl/CardService.java:121-130 | The card is looked up by id and owner. A failure of the expiry rule is passed on. The call succeeds exactly when the card is found, the expiry rule succeeds and the stored number decrypts. It then applies and persists the expiry rule and returns the `toDto` view of the stored row. |
| `CardService.GetCardDetailsExpiresLazily` | src/main/java/example/bankcards/service/impl/CardService.java:121-130 | ACTIVE becomes EXPIRED exactly when the date is past, and no other card changes. A second read changes nothing. |
| `CardService.LazyExpiryExample` | src/main/java/example/bankcards/service/impl/CardService.java:121-130 | An ACTIVE card that expired yesterday is stored and shown as EXPIRED. |
| `CardService.CheckAndExpireCards` | src/main/java/example/bankcards/service/impl/CardService.java:180-191 | The sweep fails, and changes nothing, exactly when some ACTIVE card has no date. Otherwise every card is replaced by the expiry rule's result. Users, ledger and both id counters stay as they were. |
| `CardService.SweepExpiresExactlyTheDueCards` | src/main/java/example/bankcards/service/impl/CardService.java:180-191 | After the sweep, a card is EXPIRED exactly when it was EXPIRED before or was ACTIVE and past due. Changed cards differ only in status. A second sweep is a no-op. |
| `CardService.SweepThenReadChangesNothing` | src/main/java/example/bankcards/service/impl/CardService.java:180-191 | After a sweep, the lazy expiry check on read leaves the state unchanged. |
| `CardService.SetOwnedStatus` | src/main/java/example/bankcards/service/impl/CardService.java:133-138 | The call fails exactly when the card is not the caller's. Otherwise only that card's status changes, to the target. Users, ledger and both id counters are unchanged. |
| `CardService.BlockCard` | src/main/java/example/bankcards/service/impl/CardService.java:133-138 | The caller's card becomes BLOCKED whatever its status; no other change is made. |
| `CardService.RequestCardBlock` | src/main/java/example/bankcards/service/impl/CardService.java:172-178 | The caller's card becomes PENDING_BLOCK whatever its status; no other change is made. |
| `CardService.UpdateCardStatusAsAdmin` | src/main/java/example/bankcards/service/impl/CardService.java:141-147 | Any existing card, looked up by id alone, gets the given status. A missing id gives CardNotFoundOrAccessDenied(id). |
| `CardService.SettersIgnoreCurrentStatus` | src/main/java/example/bankcards/service/impl/CardService.java:172-178 | A BLOCKED or EXPIRED card can go back to PENDING_BLOCK through its owner, or to ACTIVE through the administrator. Blocking twice is blocking once. |
| `CardService.DeleteCard` | src/main/java/example/bankcards/service/impl/CardService.java:150-152 | The id is removed if present, and every other row is kept. Users, ledger and both id counters are unchanged. |
| `CardService.DeletedCardIsGone` | src/main/java/example/bankcards/service/impl/CardService.java:121-152 | After a delete, reading, updating or blocking the id as its owner, and setting its status as administrator, all give CardNotFoundOrAccessDenied(id). |
| `CardService.ProjectAll` | src/main/java/example/bankcards/service/impl/CardService.java:116-117 | Mapping a projection over rows succeeds exactly when every row projects; the responses then follow the rows one for one. Otherwise the error is that of the first row that fails, and every earlier row projects. |
| `CardService.SelectIds` | src/main/java/example/bankcards/service/impl/CardService.java:116 | The selected ids form a subsequence of the scan order. They are exactly the scanned ids that are stored and whose card passes the predicate. |
| `CardService.GetUserCards` | src/main/java/example/bankcards/service/impl/CardService.java:93-118 | The cards are selected as a subsequence of the scan order. Each listed card meets the filter, and its response is its `toDto` view. The call succeeds exactly when every selected number decrypts, and otherwise fails with the decryption error. |
| `CardService.GetUserCardsComplete` | src/main/java/example/bankcards/service/impl/CardService.java:93-118 | Every stored card that meets the filter is selected, each exactly once. |
| `CardService.FindCardsPendingBlock` | src/main/java/example/bankcards/service/impl/CardService.java:164-169 | Only PENDING_BLOCK cards are listed, in scan order. Each response is the `toOpenDto` view of its card, so it shows the full decrypted number, the status name, id, balance, owner and expiration. The call succeeds exactly when every selected number decrypts and every selected card has an owner. |
| `CardService.PendingBlockSelection` | src/main/java/example/bankcards/service/impl/CardService.java:164-169 | A card is selected exactly when it is PENDING_BLOCK. |
| `CardService.GetAllCards` | src/main/java/example/bankcards/service/impl/CardService.java:155-161 | Every card is listed in scan order. Each response is the `toOpenDto` view of its card, with the full decrypted number. The call succeeds exactly when every number decrypts and every card has a status and an owner, which the open view dereferences. |
| `TransferService.Transfer` | src/main/java/example/bankcards/service/impl/CardTransactionService.java:31-61 | The checks run in order before any change: a missing sender, then a missing receiver (both reported under the sender id), then an inactive card (reported with the receiver's status), then `balance < amount`. The transfer succeeds exactly when all checks pass; it then debits, credits and appends one row carrying the request, with no timestamp. That row takes the next transaction id and the counter moves up by one; users and the card counter are unchanged. |
| `TransferService.TransferConservesMoney` | src/main/java/example/bankcards/service/impl/CardTransactionService.java:46-47 | Over any list of distinct ids that names both cards or neither, the total balance is unchanged by a transfer. |
| `TransferService.TransferConservesTotalOverScan` | src/main/java/example/bankcards/service/impl/CardTransactionService.java:46-47 | The total balance of all cards is unchanged by a transfer. |
| `TransferService.TransferExample` | src/main/java/example/bankcards/service/impl/CardTransactionService.java:42-56 | Balances 100 and 50 with amount 30 give 70 and 80 and one ledger row. An amount of 200 gives insufficient funds. |
| `TransferService.GetTransactionHistory` | src/main/java/example/bankcards/service/impl/CardTransactionService.java:64-70 | A card not owned by the caller gives CardNotFoundOrAccessDenied(cardId). Otherwise the result holds every ledger row that involves the card, exactly as many times as the ledger does, and no other row, newest first. |
| `TransferService.TransferShowsInBothHistories` | src/main/java/example/bankcards/service/impl/CardTransactionService.java:49-56 | The row a transfer appends is in the owner's history of both cards. |
| `TransferService.NegativeAmountAsWritten` | src/main/java/example/bankcards/service/impl/CardTransactionService.java:42-47 | As written, a negative amount passes every check and makes the receiver's balance negative. |
| `TransferService.MissingReceiverAsWritten` | src/main/java/example/bankcards/service/impl/CardTransactionService.java:35-36 | As written, a missing receiver is reported under the sender's id. |
| `TransferService.InactiveSenderAsWritten` | src/main/java/example/bankcards/service/impl/CardTransactionService.java:38-40 | As written, a BLOCKED sender is reported with the receiver's ACTIVE status. |
| `TransferService.TransferIntended` | src/main/java/example/bankcards/service/impl/CardTransactionService.java:31-47 | Corrected transfer: it succeeds exactly when both cards are owned and active, they differ, and `0 < amount <= balance`. Its effect is that of the code. The errors come in this order, each naming the offending card: missing sender id, missing receiver id, same card, the sender's own status, the receiver's status, non-positive amount, insufficient funds. |
| `TransferService.TransferIntendedIsSafe` | src/main/java/example/bankcards/service/impl/CardTransactionService.java:31-47 | Corrected transfer keeps all balances non-negative. Its errors name a card that really is missing, or a status that really is inactive. |
| `UserDetailsConfig.Authority` | src/main/java/example/bankcards/security/UserDetailsConfig.java:41-45 | Every authority carries the `ROLE_` prefix. A name that already has the prefix is kept, and any other name follows the prefix unchanged. |
| `UserDetailsConfig.AuthorityIdempotent` | src/main/java/example/bankcards/security/UserDetailsConfig.java:42-44 | Normalising twice is normalising once. |
| `UserDetailsConfig.Authorities` | src/main/java/example/bankcards/security/UserDetailsConfig.java:32-47 | The only failure is a NullPointerException. On success there is one authority per non-null role, and each carries the `ROLE_` prefix. |
| `UserDetailsConfig.AuthoritiesMeaning` | src/main/java/example/bankcards/security/UserDetailsConfig.java:32-47 | The mapping fails exactly when some non-null role has a null name. Otherwise the i-th authority is the normalised name of the i-th non-null role, so null roles are dropped and the order is kept. |
| `UserDetailsConfig.Build` | src/main/java/example/bankcards/security/UserDetailsConfig.java:23-54 | A null user is an IllegalArgumentException, and a null username or password is a NullPointerException with its message. Otherwise, null roles give a principal with no authorities. With roles present, the call succeeds exactly when the role mapping succeeds, and the authorities are then its result; a failure is its NullPointerException. Id, username and password are copied. |
| `UserDetailsConfig.AccountAlwaysUsable` | src/main/java/example/bankcards/security/UserDetailsConfig.java:71-89 | The four account flags are always true. |
| `UserDetailsConfig.BuildExample` | src/main/java/example/bankcards/security/UserDetailsConfig.java:32-47 | Roles `USER`, null and `ROLE_ADMIN` give `ROLE_USER` and `ROLE_ADMIN`. A role with a null name fails. |
| `GlobalExceptionHandler.StatusFor` | src/main/java/example/bankcards/exception/GlobalExceptionHandler.java:24-72 | Each status holds exactly for these kinds: 404 for login-user, card or role not found; 400 for an invalid number or an inactive card; 409 for a duplicate card or username; 403 for access denied; 401 for an authentication failure; 500 for everything else. |
| `GlobalExceptionHandler.BuildErrorResponse` | src/main/java/example/bankcards/exception/GlobalExceptionHandler.java:55-63 | The response status, the body's status and the reason phrase agree. The body carries the exception message and the given time. |
| `GlobalExceptionHandler.UnhandledKindsAreServerErrors` | src/main/java/example/bankcards/exception/GlobalExceptionHandler.java:49-53 | Insufficient funds, UserNotFound, decryption failure and a NullPointerException are all answered with 500. |

## Left out

- Controllers, `@PreAuthorize` role gating, authentication, JWT, BCrypt, `UserService`, `AuthService` and the login wiring: routing and credential plumbing outside the card domain.
- Pagination: `Page`/`Pageable` slicing and sorting parameters are not modelled. Listings and history return the whole result in query order.
- `CardTransactionMapper` and `UserMapper`: field copies. History returns the ledger rows themselves.
- Concurrency and locking: the code has none. A call is one atomic step of the model.
- `CardStatusScheduler`: cron wiring only. The sweep itself is `CardService.CheckAndExpireCards`.
- Logging in every class, including the warning for blank role names: it has no effect on state.
- `EncryptionUtil`'s AES and Base64: abstracted as the `Cipher` pair. A key failure during encryption is not modelled (`enc` is total). The charset difference between encryption and decryption does not matter for ASCII digits.
- The null-card early returns of `toDto` and `toOpenDto`: no caller passes null.
- A null transfer amount or null card ids in a request: the code would throw a NullPointerException or fail the lookup. The model types amounts and ids as non-null. A null balance on a stored row cannot arise through the modelled operations.
- The text of JVM-raised NullPointerException messages: modelled as an absent message.
- Foreign-key behaviour when a card referenced by the ledger is deleted: not in the visible code.
- `Repository.FindAllByCardId`: rows with equal timestamps keep ledger order, whereas SQL leaves their order unspecified. Null timestamps are placed first, which is the PostgreSQL default for `DESC`. Since timestamps are never assigned, every row ties in practice.
- `CardService.GetUserCards`, `CardService.FindCardsPendingBlock`, `CardService.GetAllCards`: the database scan order is a parameter, not derived.
- `UserDetailsConfig.Build`: the role collection's iteration order is taken as a sequence given by the caller.
- `Entities.MaskedCardNumber`: strings are sequences of Unicode scalar values, whereas Java's `length()` and `substring` count UTF-16 code units. The two disagree only on characters outside the Basic Multilingual Plane. They agree on the ASCII-digit numbers that every stored card holds.

## Findings

| source | as written | input that shows it | evidently intended | confidence | as-written member | corrected member |
|---|---|---|---|---|---|---|
| src/main/java/example/bankcards/service/impl/CardService.java:53-55 | The duplicate check looks up the plaintext number, but rows store its ciphertext. | Issue `1234567812345678` to user 7 twice: both succeed. | Look up the encrypted number. | high; not executed | `CardService.CreateTwiceAsWritten` | `CardService.CreateCardIntended` |
| src/main/java/example/bankcards/service/impl/CardService.java:74-78 | A new number is compared and stored unencrypted. | Update card 1 to `8765432187654321`, then read it: decryption fails, and real AES cannot decrypt 12 Base64 bytes. | Encrypt before comparing and storing. | high; not executed | `CardService.UpdateThenReadAsWritten` | `CardService.UpdateCardIntended` |
| src/main/java/example/bankcards/service/impl/CardTransactionService.java:42-47 | The sign of the amount is never checked. | Two zero-balance ACTIVE cards and amount -50: the receiver ends at -50. | Reject a non-positive amount. | high; not executed | `TransferService.NegativeAmountAsWritten` | `TransferService.TransferIntended` |
| src/main/java/example/bankcards/service/impl/CardTransactionService.java:35-36 | A missing receiver is reported with the sender id. | Sender 1 owned, receiver 2 absent: the error names card 1. | Report the receiver id. | medium; not executed | `TransferService.MissingReceiverAsWritten` | `TransferService.TransferIntended` |
| src/main/java/example/bankcards/service/impl/CardTransactionService.java:38-39 | The inactive-card error carries the receiver's status. | BLOCKED sender, ACTIVE receiver: the message ends with `ACTIVE`. | Report the inactive card's status. | medium; not executed | `TransferService.InactiveSenderAsWritten` | `TransferService.TransferIntended` |

=== FILE: card_mapper.dfy ===
/** CardMapper: the request and response views of a card and the three
    projections between them and the entity. */
module CardMapper {
  import opened Wrappers
  import opened Entities
  import opened Errors
  import opened Crypto

  /** CardRequestDto: every field may be absent (null). */
  datatype CardRequest = CardRequest(
    cardNumber: Option<string>,
    expirationDate: Option<Date>,
    balance: Option<Money>)

  /** CardResponseDto. `maskedCardNumber` carries the full number in the
      "open" projection. */
  datatype CardResponse = CardResponse(
    id: Option<CardId>,
    maskedCardNumber: string,
    expirationDate: Option<Date>,
    status: Option<string>,
    balance: Money,
    ownerId: Option<UserId>)

  function StatusString(s: Option<CardStatus>): Option<string> {
    if s.Some? then Some(StatusName(s.value)) else None
  }

  /** toEntity: null when the request or the owner is null; otherwise a new,
      not yet saved, ACTIVE card holding the encrypted number. Encrypting a
      null number throws inside the utility and is rethrown as
      "Error encrypting". */
  function ToEntity(c: Cipher, dto: Option<CardRequest>, owner: Option<UserId>): (r: Result<Option<Card>, Error>)
    ensures dto.None? || owner.None? ==> r == Ok(None)
    ensures r.Err? <==> dto.Some? && owner.Some? && dto.value.cardNumber.None?
    ensures r.Err? ==> r.error == EncryptionFailed
    ensures r.Ok? && r.value.Some? ==>
              && dto.Some? && owner.Some?
              && r.value.value.id.None?
              && r.value.value.status == Some(Active)
              && r.value.value.owner == owner
              && r.value.value.cardNumber == c.enc(dto.value.cardNumber.value)
              && r.value.value.expirationDate == dto.value.expirationDate
              && r.value.value.balance == (if dto.value.balance.Some? then dto.value.balance.value else 0.0)
  {
    if dto.None? || owner.None? then Ok(None)
    else if dto.value.cardNumber.None? then Err(EncryptionFailed)
    else
      var d := dto.value;
      Ok(Some(Card(None, c.enc(d.cardNumber.value), d.expirationDate, Some(Active),
                    d.balance.GetOr(0.0), owner)))
  }

  /** toDto: decrypts the stored number (a failure propagates) and shows it
      masked; a null status or owner is shown as null. */
  function ToDto(c: Cipher, card: Card): (r: Result<CardResponse, Error>)
    ensures r.Err? <==> c.dec(card.cardNumber).None?
    ensures r.Err? ==> r.error == DecryptionFailed
    ensures r.Ok? ==>
              && r.value.maskedCardNumber == MaskedCardNumber(c.dec(card.cardNumber))
              && r.value.id == card.id
              && r.value.expirationDate == card.expirationDate
              && r.value.balance == card.balance
              && (r.value.status.None? <==> card.status.None?)
              && (card.status.Some? ==> r.value.status == Some(StatusName(card.status.value)))
              && r.value.ownerId == card.owner
  {
    match c.dec(card.cardNumber)
    case None => Err(DecryptionFailed)
    case Some(plain) =>
      Ok(CardResponse(card.id, MaskedCardNumber(Some(plain)), card.expirationDate,
                      StatusString(card.status), card.balance, card.owner))
  }

  /** toOpenDto: like toDto but puts the whole decrypted number in the
      masked field, and dereferences status and owner without a null check. */
  function ToOpenDto(c: Cipher, card: Card): (r: Result<CardResponse, Error>)
    ensures c.dec(card.cardNumber).None? ==> r == Err(DecryptionFailed)
    ensures r.Ok? <==> c.dec(card.cardNumber).Some? && card.status.Some? && card.owner.Some?
    ensures r.Ok? ==>
              && Some(r.value.maskedCardNumber) == c.dec(card.cardNumber)
              && r.value.id == card.id
              && r.value.status == Some(StatusName(card.status.value))
              && r.value.ownerId == card.owner
              && r.value.balance == card.balance
              && r.value.expirationDate == card.expirationDate
  {
    match c.dec(card.cardNumber)
    case None => Err(DecryptionFailed)
    case Some(plain) =>
      if card.status.None? || card.owner.None? then Err(NullDereference(None))
      else Ok(CardResponse(card.id, plain, card.expirationDate,
                           StatusString(card.status), card.balance, card.owner))
  }

  /** Issuing then viewing a card shows the request's number masked; the
      open view shows it in full. */
  lemma EntityThenDtoMasksRequestNumber(c: Cipher, dto: CardRequest, owner: UserId)
    requires Sound(c)
    requires dto.cardNumber.Some?
    ensures ToEntity(c, Some(dto), Some(owner)).Ok?
    ensures ToEntity(c, Some(dto), Some(owner)).value.Some?
    ensures ToDto(c, ToEntity(c, Some(dto), Some(owner)).value.value)
              == Ok(CardResponse(None, MaskedCardNumber(dto.cardNumber), dto.expirationDate,
                                 Some("ACTIVE"), dto.balance.GetOr(0.0), Some(owner)))
    ensures ToOpenDto(c, ToEntity(c, Some(dto), Some(owner)).value.value).Ok?
    ensures ToOpenDto(c, ToEntity(c, Some(dto), Some(owner)).value.value).value.maskedCardNumber
              == dto.cardNumber.value
  {
    var card := ToEntity(c, Some(dto), Some(owner)).value.value;
    assert c.dec(c.enc(dto.cardNumber.value)) == Some(dto.cardNumber.value);
    assert card.cardNumber == c.enc(dto.cardNumber.value);
  }
}

=== FILE: card_service.dfy ===
/** CardService: issuance, partial update, listings, the lazy and the bulk
    expiry check, the status setters and deletion. Every operation returns
    the new state with its answer, or the exception it throws; the service
    is @Transactional, so an exception discards every change of the call and
    the caller keeps the state it had. `today` stands for `LocalDate.now()`. */
module CardService {
  import opened Wrappers
  import opened Entities
  import opened Errors
  import opened Crypto
  import opened CardMapper
  import opened CardSpecification
  import opened Repository

  // ----- isValidCardNumberFormat: non-null and matching ^\d{16}$ -----

  /** `\d` without UNICODE_CHARACTER_CLASS is the ASCII digits only. */
  predicate IsDigit(ch: char) {
    '0' <= ch <= '9'
  }

  predicate ValidCardNumber(n: Option<string>) {
    n.Some? && |n.value| == 16 && forall i :: 0 <= i < |n.value| ==> IsDigit(n.value[i])
  }

  /** The matcher: a length test, then a scan for a non-digit. */
  method IsValidCardNumberFormat(n: Option<string>) returns (ok: bool)
    ensures ok <==> ValidCardNumber(n)
  {
    if n.None? || |n.value| != 16 {
      return false;
    }
    var s := n.value;
    var i := 0;
    while i < |s|
      invariant 0 <= i <= |s|
      invariant forall j :: 0 <= j < i ==> IsDigit(s[j])
    {
      if !IsDigit(s[i]) {
        return false;
      }
      i := i + 1;
    }
    return true;
  }

  lemma CardNumberExamples()
    ensures ValidCardNumber(Some("1234567812345678"))
    ensures !ValidCardNumber(Some("123"))
    ensures !ValidCardNumber(Some("123456781234567a"))
    ensures !ValidCardNumber(Some("12345678123456789"))
    ensures !ValidCardNumber(None)
  {
    assert !IsDigit("123456781234567a"[15]);
  }

  // ----- createCard -----

  /** `save` of a new row: the identity sequence gives its id. */
  function Insert(b: Bank, card: Card): (Bank, Card) {
    var saved := card.(id := Some(b.nextCardId));
    (b.(cards := b.cards[b.nextCardId := saved], nextCardId := b.nextCardId + 1), saved)
  }

  /** createCard as written: the owner must exist, the number must be well
      formed, and no row may already store the number; note that the
      duplicate test looks up the PLAINTEXT while rows store ciphertext. */
  function CreateCard(b: Bank, c: Cipher, ownerId: UserId, dto: CardRequest): (r: Result<(Bank, CardResponse), Error>)
    ensures ownerId !in b.users ==> r == Err(UserNotFound(ownerId))
    ensures ownerId in b.users && !ValidCardNumber(dto.cardNumber) ==> r == Err(InvalidCardNumber(dto.cardNumber))
    ensures (ownerId in b.users && ValidCardNumber(dto.cardNumber) && ExistsByCardNumber(b.cards, dto.cardNumber.value))
              ==> r == Err(CardAlreadyExists(dto.cardNumber.value))
    ensures r.Ok? ==> IssuedAs(b, r.value.0, r.value.1, c, ownerId, dto)
    ensures r.Ok? || r.error != DecryptionFailed ==>
              (r.Ok? <==> ownerId in b.users && ValidCardNumber(dto.cardNumber)
                          && !ExistsByCardNumber(b.cards, dto.cardNumber.value))
  {
    if ownerId !in b.users then Err(UserNotFound(ownerId))
    else if !ValidCardNumber(dto.cardNumber) then Err(InvalidCardNumber(dto.cardNumber))
    else if ExistsByCardNumber(b.cards, dto.cardNumber.value) then Err(CardAlreadyExists(dto.cardNumber.value))
    else Issue(b, c, ownerId, dto)
  }

  /** The state after issuing: exactly one new ACTIVE row, under the next id,
      holding the encrypted number; everything else is as before, and the
      response is the toDto view of the saved row. */
  predicate IssuedAs(b: Bank, b': Bank, resp: CardResponse, c: Cipher, ownerId: UserId, dto: CardRequest)
    requires dto.cardNumber.Some?
  {
    var card := Card(Some(b.nextCardId), c.enc(dto.cardNumber.value), dto.expirationDate,
                     Some(Active), dto.balance.GetOr(0.0), Some(ownerId));
    && b' == b.(cards := b.cards[b.nextCardId := card], nextCardId := b.nextCardId + 1)
    && resp.id == Some(b.nextCardId)
    && resp.maskedCardNumber == MaskedCardNumber(c.dec(card.cardNumber))
    && ToDto(c, card) == Ok(resp)
  }

  /** toEntity, save, toDto. */
  function Issue(b: Bank, c: Cipher, ownerId: UserId, dto: CardRequest): (r: Result<(Bank, CardResponse), Error>)
    requires dto.cardNumber.Some?
    ensures r.Ok? ==> IssuedAs(b, r.value.0, r.value.1, c, ownerId, dto)
    ensures r.Err? <==> c.dec(c.enc(dto.cardNumber.value)).None?
    ensures r.Err? ==> r.error == DecryptionFailed
  {
    var entity := ToEntity(c, Some(dto), Some(ownerId)).value.value;
    var (b', saved) := Insert(b, entity);
    var resp :- ToDto(c, saved);
    Ok((b', resp))
  }

  /** With a sound key an issuance that passes the checks always succeeds and
      shows the requested number masked. */
  lemma CreateCardSucceeds(b: Bank, c: Cipher, ownerId: UserId, dto: CardRequest)
    requires Sound(c)
    requires ownerId in b.users && ValidCardNumber(dto.cardNumber)
    requires !ExistsByCardNumber(b.cards, dto.cardNumber.value)
    ensures CreateCard(b, c, ownerId, dto).Ok?
    ensures CreateCard(b, c, ownerId, dto).value.1.maskedCardNumber == MaskedCardNumber(dto.cardNumber)
  {
    assert c.dec(c.enc(dto.cardNumber.value)) == Some(dto.cardNumber.value);
  }

  /** Card numbers stored in distinct rows differ. */
  predicate UniqueNumbers(cards: map<CardId, Card>) {
    forall j, k :: j in cards && k in cards && j != k ==> cards[j].cardNumber != cards[k].cardNumber
  }

  /** As written, a number whose ciphertext differs from it can be issued
      twice in a row: the second duplicate test looks up the plaintext, while
      the first row holds the ciphertext. */
  lemma {:induction false} IssueTwiceAsWritten(b: Bank, c: Cipher, ownerId: UserId, dto: CardRequest)
    requires Sound(c)
    requires ownerId in b.users && ValidCardNumber(dto.cardNumber)
    requires !ExistsByCardNumber(b.cards, dto.cardNumber.value)
    requires c.enc(dto.cardNumber.value) != dto.cardNumber.value
    ensures CreateCard(b, c, ownerId, dto).Ok?
    ensures var b1 := CreateCard(b, c, ownerId, dto).value.0;
            && CreateCard(b1, c, ownerId, dto).Ok?
            && !UniqueNumbers(CreateCard(b1, c, ownerId, dto).value.0.cards)
  {
    var n := dto.cardNumber.value;
    CreateCardSucceeds(b, c, ownerId, dto);
    var r1 := CreateCard(b, c, ownerId, dto);
    var b1 := r1.value.0;
    assert IssuedAs(b, b1, r1.value.1, c, ownerId, dto);
    var id1 := b.nextCardId;
    assert b1.cards == b.cards[id1 := b1.cards[id1]] && b1.cards[id1].cardNumber == c.enc(n);
    assert !ExistsByCardNumber(b1.cards, n);
    CreateCardSucceeds(b1, c, ownerId, dto);
    var r2 := CreateCard(b1, c, ownerId, dto);
    var b2 := r2.value.0;
    assert IssuedAs(b1, b2, r2.value.1, c, ownerId, dto);
    assert b1.nextCardId == id1 + 1;
    assert b2.cards[id1] == b1.cards[id1];
    assert b2.cards[id1].cardNumber == b2.cards[id1 + 1].cardNumber;
  }

  /** A concrete run of the code as written: the same number is issued twice,
      because the duplicate test compares the plaintext with the stored
      ciphertext. */
  lemma {:induction false} CreateTwiceAsWritten()
    ensures var b0 := Bank({7}, map[], [], 1, 1);
            var dto := CardRequest(Some("1234567812345678"), Some(20000), Some(10.0));
            var r1 := CreateCard(b0, Tagging(), 7, dto);
            && r1.Ok?
            && var r2 := CreateCard(r1.value.0, Tagging(), 7, dto);
            && r2.Ok?
            && !UniqueNumbers(r2.value.0.cards)
  {
    var n := "1234567812345678";
    var dto := CardRequest(Some(n), Some(20000), Some(10.0));
    assert ValidCardNumber(dto.cardNumber) by {
      assert forall i :: 0 <= i < |n| ==> IsDigit(n[i]);
    }
    assert |Tagging().enc(n)| == 17;
    IssueTwiceAsWritten(Bank({7}, map[], [], 1, 1), Tagging(), 7, dto);
  }

  /** createCard as evidently intended: the duplicate test looks up the
      encrypted number, which is what the rows hold. */
  function CreateCardIntended(b: Bank, c: Cipher, ownerId: UserId, dto: CardRequest): (r: Result<(Bank, CardResponse), Error>)
    ensures ownerId !in b.users ==> r == Err(UserNotFound(ownerId))
    ensures ownerId in b.users && !ValidCardNumber(dto.cardNumber) ==> r == Err(InvalidCardNumber(dto.cardNumber))
    ensures (ownerId in b.users && ValidCardNumber(dto.cardNumber) && ExistsByCardNumber(b.cards, c.enc(dto.cardNumber.value)))
              ==> r == Err(CardAlreadyExists(dto.cardNumber.value))
    ensures r.Ok? ==> IssuedAs(b, r.value.0, r.value.1, c, ownerId, dto)
    ensures r.Ok? || r.error != DecryptionFailed ==>
              (r.Ok? <==> ownerId in b.users && ValidCardNumber(dto.cardNumber)
                          && !ExistsByCardNumber(b.cards, c.enc(dto.cardNumber.value)))
  {
    if ownerId !in b.users then Err(UserNotFound(ownerId))
    else if !ValidCardNumber(dto.cardNumber) then Err(InvalidCardNumber(dto.cardNumber))
    else if ExistsByCardNumber(b.cards, c.enc(dto.cardNumber.value)) then Err(CardAlreadyExists(dto.cardNumber.value))
    else Issue(b, c, ownerId, dto)
  }

  /** With a sound key the corrected issuance succeeds whenever the owner
      exists, the number is well formed and its encryption is not stored yet;
      the response shows the requested number masked. */
  lemma CreateCardIntendedSucceeds(b: Bank, c: Cipher, ownerId: UserId, dto: CardRequest)
    requires Sound(c)
    requires ownerId in b.users && ValidCardNumber(dto.cardNumber)
    requires !ExistsByCardNumber(b.cards, c.enc(dto.cardNumber.value))
    ensures CreateCardIntended(b, c, ownerId, dto).Ok?
    ensures CreateCardIntended(b, c, ownerId, dto).value.1.maskedCardNumber == MaskedCardNumber(dto.cardNumber)
  {
    assert c.dec(c.enc(dto.cardNumber.value)) == Some(dto.cardNumber.value);
  }

  /** The corrected issuance keeps stored numbers unique and refuses to issue
      a number a second time. */
  lemma {:induction false} CreateCardIntendedKeepsNumbersUnique(b: Bank, c: Cipher, ownerId: UserId, dto: CardRequest, other: UserId)
    requires WellFormed(b) && UniqueNumbers(b.cards)
    requires CreateCardIntended(b, c, ownerId, dto).Ok?
    ensures WellFormed(CreateCardIntended(b, c, ownerId, dto).value.0)
    ensures UniqueNumbers(CreateCardIntended(b, c, ownerId, dto).value.0.cards)
    ensures other in b.users ==>
              CreateCardIntended(CreateCardIntended(b, c, ownerId, dto).value.0, c, other, dto)
                == Err(CardAlreadyExists(dto.cardNumber.value))
  {
    var b' := CreateCardIntended(b, c, ownerId, dto).value.0;
    var id := b.nextCardId;
    assert id !in b.cards;
    assert b'.cards[id].cardNumber == c.enc(dto.cardNumber.value);
    assert !ExistsByCardNumber(b.cards, c.enc(dto.cardNumber.value));
    forall j, k | j in b'.cards && k in b'.cards && j != k
      ensures b'.cards[j].cardNumber != b'.cards[k].cardNumber
    {
      if j == id {
        assert k in b.cards;
      } else if k == id {
        assert j in b.cards;
      }
    }
    assert b'.users == b.users;
    assert ExistsByCardNumber(b'.cards, c.enc(dto.cardNumber.value));
  }

  // ----- updateCard -----

  /** updateCard as written: a present number must be well formed and, unless
      equal to the stored string, not stored anywhere; it is then stored AS
      GIVEN (plaintext). Each present field overwrites, each absent one is
      kept. */
  function UpdateCard(b: Bank, userId: UserId, cardId: CardId, dto: CardRequest): (r: Result<Bank, Error>)
    ensures FindByIdAndOwnerId(b.cards, cardId, userId).None? ==> r == Err(CardNotFoundOrAccessDenied(cardId))
    ensures r.Err? && r.error.InvalidCardNumber? ==> dto.cardNumber.Some? && !ValidCardNumber(dto.cardNumber)
    ensures (FindByIdAndOwnerId(b.cards, cardId, userId).Some? && dto.cardNumber.Some? && !ValidCardNumber(dto.cardNumber))
              ==> r == Err(InvalidCardNumber(dto.cardNumber))
    ensures (FindByIdAndOwnerId(b.cards, cardId, userId).Some? && ValidCardNumber(dto.cardNumber)
             && dto.cardNumber.value != b.cards[cardId].cardNumber && ExistsByCardNumber(b.cards, dto.cardNumber.value))
              ==> r == Err(CardAlreadyExists(dto.cardNumber.value))
    ensures r.Ok? <==>
              && FindByIdAndOwnerId(b.cards, cardId, userId).Some?
              && (dto.cardNumber.None?
                  || (&& ValidCardNumber(dto.cardNumber)
                      && (dto.cardNumber.value == b.cards[cardId].cardNumber || !ExistsByCardNumber(b.cards, dto.cardNumber.value))))
    ensures r.Ok? ==>
              && cardId in b.cards && b.cards[cardId].owner == Some(userId)
              && r.value == b.(cards := b.cards[cardId := Patched(b.cards[cardId], dto.cardNumber, dto)])
  {
    match FindByIdAndOwnerId(b.cards, cardId, userId)
    case None => Err(CardNotFoundOrAccessDenied(cardId))
    case Some(card) =>
      if dto.cardNumber.Some? && !ValidCardNumber(dto.cardNumber) then
        Err(InvalidCardNumber(dto.cardNumber))
      else if dto.cardNumber.Some? && dto.cardNumber.value != card.cardNumber
              && ExistsByCardNumber(b.cards, dto.cardNumber.value) then
        Err(CardAlreadyExists(dto.cardNumber.value))
      else
        Ok(b.(cards := b.cards[cardId := Patched(card, dto.cardNumber, dto)]))
  }

  /** The row after a partial update that stores `number` (when present). */
  function Patched(card: Card, number: Option<string>, dto: CardRequest): Card {
    card.(cardNumber := number.GetOr(card.cardNumber),
          expirationDate := if dto.expirationDate.Some? then dto.expirationDate else card.expirationDate,
          balance := dto.balance.GetOr(card.balance))
  }

  /** The update is partial: a null field keeps the stored value, a present
      one replaces it, no other row and neither ledger nor users change, and
      repeating a successful update changes nothing further. */
  lemma {:induction false} UpdateCardIsPartial(b: Bank, userId: UserId, cardId: CardId, dto: CardRequest)
    requires UpdateCard(b, userId, cardId, dto).Ok?
    ensures var b' := UpdateCard(b, userId, cardId, dto).value;
            && b'.cards.Keys == b.cards.Keys
            && b'.ledger == b.ledger && b'.users == b.users
            && (forall k :: k in b.cards && k != cardId ==> b'.cards[k] == b.cards[k])
            && b'.cards[cardId].cardNumber == (if dto.cardNumber.Some? then dto.cardNumber.value else b.cards[cardId].cardNumber)
            && b'.cards[cardId].expirationDate == (if dto.expirationDate.Some? then dto.expirationDate else b.cards[cardId].expirationDate)
            && b'.cards[cardId].balance == (if dto.balance.Some? then dto.balance.value else b.cards[cardId].balance)
            && b'.cards[cardId].status == b.cards[cardId].status
            && b'.cards[cardId].owner == b.cards[cardId].owner
            && UpdateCard(b', userId, cardId, dto) == Ok(b')
  {
    var b' := UpdateCard(b, userId, cardId, dto).value;
    var card' := b'.cards[cardId];
    assert FindByIdAndOwnerId(b'.cards, cardId, userId) == Some(card');
    assert Patched(card', dto.cardNumber, dto) == card';
    assert b'.cards[cardId := card'] == b'.cards;
    assert b'.(cards := b'.cards[cardId := card']) == b';
  }

  /** updateCard as evidently intended: the number is encrypted before it is
      compared and stored, as at issuance. */
  function UpdateCardIntended(b: Bank, c: Cipher, userId: UserId, cardId: CardId, dto: CardRequest): (r: Result<Bank, Error>)
    ensures FindByIdAndOwnerId(b.cards, cardId, userId).None? ==> r == Err(CardNotFoundOrAccessDenied(cardId))
    ensures (FindByIdAndOwnerId(b.cards, cardId, userId).Some? && dto.cardNumber.Some? && !ValidCardNumber(dto.cardNumber))
              ==> r == Err(InvalidCardNumber(dto.cardNumber))
    ensures (FindByIdAndOwnerId(b.cards, cardId, userId).Some? && ValidCardNumber(dto.cardNumber)
             && c.enc(dto.cardNumber.value) != b.cards[cardId].cardNumber
             && ExistsByCardNumber(b.cards, c.enc(dto.cardNumber.value)))
              ==> r == Err(CardAlreadyExists(dto.cardNumber.value))
    ensures r.Ok? <==>
              && FindByIdAndOwnerId(b.cards, cardId, userId).Some?
              && (dto.cardNumber.None?
                  || (&& ValidCardNumber(dto.cardNumber)
                      && (c.enc(dto.cardNumber.value) == b.cards[cardId].cardNumber
                          || !ExistsByCardNumber(b.cards, c.enc(dto.cardNumber.value)))))
    ensures r.Ok? ==>
              && cardId in b.cards && b.cards[cardId].owner == Some(userId)
              && r.value == b.(cards := b.cards[cardId := Patched(b.cards[cardId], Encrypted(c, dto.cardNumber), dto)])
  {
    match FindByIdAndOwnerId(b.cards, cardId, userId)
    case None => Err(CardNotFoundOrAccessDenied(cardId))
    case Some(card) =>
      if dto.cardNumber.Some? && !ValidCardNumber(dto.cardNumber) then
        Err(InvalidCardNumber(dto.cardNumber))
      else if dto.cardNumber.Some? && c.enc(dto.cardNumber.value) != card.cardNumber
              && ExistsByCardNumber(b.cards, c.enc(dto.cardNumber.value)) then
        Err(CardAlreadyExists(dto.cardNumber.value))
      else
        Ok(b.(cards := b.cards[cardId := Patched(card, Encrypted(c, dto.cardNumber), dto)]))
  }

  function Encrypted(c: Cipher, n: Option<string>): (r: Option<string>)
    ensures r.Some? <==> n.Some?
  {
    if n.Some? then Some(c.enc(n.value)) else None
  }

  /** A concrete run of the code as written: after an update the row holds a
      plaintext number, which the next read cannot decrypt. */
  lemma UpdateThenReadAsWritten()
    ensures var card := Card(Some(1), "#1234567812345678", Some(20000), Some(Active), 10.0, Some(7));
            var b0 := Bank({7}, map[1 := card], [], 2, 1);
            var r1 := UpdateCard(b0, 7, 1, CardRequest(Some("8765432187654321"), None, None));
            && r1.Ok?
            && GetCardDetails(r1.value, Tagging(), 7, 1, 100) == Err(DecryptionFailed)
  {
    var n := "8765432187654321";
    assert ValidCardNumber(Some(n)) by {
      assert forall i :: 0 <= i < |n| ==> IsDigit(n[i]);
    }
    var card := Card(Some(1), "#1234567812345678", Some(20000), Some(Active), 10.0, Some(7));
    assert !ExistsByCardNumber(map[1 := card], n) by {
      assert card.cardNumber[0] != n[0];
    }
    assert Tagging().dec(n) == None;
  }

  /** With the corrected update a new number reads back, masked, on the next
      read. */
  lemma {:induction false} UpdateCardIntendedThenRead(b: Bank, c: Cipher, userId: UserId, cardId: CardId, dto: CardRequest, today: Date)
    requires Sound(c)
    requires dto.cardNumber.Some?
    requires UpdateCardIntended(b, c, userId, cardId, dto).Ok?
    requires ExpireIfDue(b.cards[cardId], today).Ok?
    ensures var b' := UpdateCardIntended(b, c, userId, cardId, dto).value;
            && GetCardDetails(b', c, userId, cardId, today).Ok?
            && GetCardDetails(b', c, userId, cardId, today).value.1.maskedCardNumber == MaskedCardNumber(dto.cardNumber)
  {
    var b' := UpdateCardIntended(b, c, userId, cardId, dto).value;
    var card' := b'.cards[cardId];
    assert card'.cardNumber == c.enc(dto.cardNumber.value);
    assert c.dec(c.enc(dto.cardNumber.value)) == dto.cardNumber;
    assert FindByIdAndOwnerId(b'.cards, cardId, userId) == Some(card');
    assert ExpireIfDue(card', today).Ok?;
  }

  // ----- the expiry rule, shared by getCardDetails and checkAndExpireCards -----

  /** An ACTIVE card whose date is strictly before today becomes EXPIRED; an
      ACTIVE card without a date dereferences null; any other card is left
      as it is. */
  function ExpireIfDue(card: Card, today: Date): (r: Result<Card, Error>)
    ensures r.Err? <==> card.status == Some(Active) && card.expirationDate.None?
    ensures r.Err? ==> r.error == NullDereference(None)
    ensures r.Ok? ==> r.value.(status := card.status) == card
    ensures r.Ok? ==> (r.value != card <==> card.status == Some(Active) && card.expirationDate.value < today)
    ensures r.Ok? && r.value != card ==> r.value.status == Some(Expired)
  {
    if card.status != Some(Active) then Ok(card)
    else if card.expirationDate.None? then Err(NullDereference(None))
    else if card.expirationDate.value < today then Ok(card.(status := Some(Expired)))
    else Ok(card)
  }

  lemma ExpireIfDueIdempotent(card: Card, today: Date)
    requires ExpireIfDue(card, today).Ok?
    ensures ExpireIfDue(ExpireIfDue(card, today).value, today) == ExpireIfDue(card, today)
  {
  }

  // ----- getCardDetails -----

  /** getCardDetails: look the card up by (id, owner), apply the expiry rule,
      persist it, and show the card through toDto. */
  function GetCardDetails(b: Bank, c: Cipher, userId: UserId, cardId: CardId, today: Date): (r: Result<(Bank, CardResponse), Error>)
    ensures FindByIdAndOwnerId(b.cards, cardId, userId).None? ==> r == Err(CardNotFoundOrAccessDenied(cardId))
    ensures (FindByIdAndOwnerId(b.cards, cardId, userId).Some? && ExpireIfDue(b.cards[cardId], today).Err?)
              ==> r == Err(ExpireIfDue(b.cards[cardId], today).error)
    ensures r.Ok? <==>
              && FindByIdAndOwnerId(b.cards, cardId, userId).Some?
              && ExpireIfDue(b.cards[cardId], today).Ok?
              && c.dec(b.cards[cardId].cardNumber).Some?
    ensures r.Ok? ==>
              && cardId in b.cards
              && ExpireIfDue(b.cards[cardId], today).Ok?
              && r.value.0 == b.(cards := b.cards[cardId := ExpireIfDue(b.cards[cardId], today).value])
              && ToDto(c, r.value.0.cards[cardId]) == Ok(r.value.1)
  {
    match FindByIdAndOwnerId(b.cards, cardId, userId)
    case None => Err(CardNotFoundOrAccessDenied(cardId))
    case Some(card) =>
      var checked :- ExpireIfDue(card, today);
      var resp :- ToDto(c, checked);
      Ok((b.(cards := b.cards[cardId := checked]), resp))
  }

  /** The lazy check flips ACTIVE to EXPIRED exactly when the date is past,
      changes nothing else, and a second read changes nothing more. */
  lemma {:induction false} GetCardDetailsExpiresLazily(b: Bank, c: Cipher, userId: UserId, cardId: CardId, today: Date)
    requires GetCardDetails(b, c, userId, cardId, today).Ok?
    ensures var b' := GetCardDetails(b, c, userId, cardId, today).value.0;
            && b'.cards.Keys == b.cards.Keys
            && (forall k :: k in b.cards && k != cardId ==> b'.cards[k] == b.cards[k])
            && (b'.cards[cardId].status == Some(Expired) && b.cards[cardId].status == Some(Active)
                <==> b.cards[cardId].status == Some(Active) && b.cards[cardId].expirationDate.value < today)
            && (b'.cards[cardId] != b.cards[cardId] ==> b'.cards[cardId].status == Some(Expired))
            && GetCardDetails(b', c, userId, cardId, today).Ok?
            && GetCardDetails(b', c, userId, cardId, today).value.0 == b'
  {
    var card := b.cards[cardId];
    var b' := GetCardDetails(b, c, userId, cardId, today).value.0;
    ExpireIfDueIdempotent(card, today);
    var card' := b'.cards[cardId];
    assert card' == ExpireIfDue(card, today).value;
    assert FindByIdAndOwnerId(b'.cards, cardId, userId) == Some(card');
    assert c.dec(card'.cardNumber) == c.dec(card.cardNumber);
    assert b'.cards[cardId := card'] == b'.cards;
  }

  /** The scenario of CardServiceTest.getCardDetails_autoExpiresIfExpired:
      an ACTIVE card that expired yesterday is shown, and stored, as EXPIRED. */
  lemma LazyExpiryExample(c: Cipher)
    requires Sound(c)
    ensures var card := Card(Some(10), c.enc("1234567812345678"), Some(99), Some(Active), 5.0, Some(1));
            var b := Bank({1}, map[10 := card], [], 11, 1);
            var r := GetCardDetails(b, c, 1, 10, 100);
            && r.Ok?
            && r.value.0.cards[10].status == Some(Expired)
            && r.value.1.status == Some("EXPIRED")
            && r.value.1.maskedCardNumber == "**** **** **** 5678"
  {
    assert c.dec(c.enc("1234567812345678")) == Some("1234567812345678");
  }

  // ----- checkAndExpireCards -----

  /** checkAndExpireCards: the expiry rule applied to every ACTIVE card; an
      ACTIVE card without a date throws and the whole sweep is rolled back. */
  function CheckAndExpireCards(b: Bank, today: Date): (r: Result<Bank, Error>)
    ensures r.Err? <==> exists k :: k in b.cards && b.cards[k].status == Some(Active) && b.cards[k].expirationDate.None?
    ensures r.Ok? ==> r.value.cards.Keys == b.cards.Keys && r.value.ledger == b.ledger && r.value.users == b.users
    ensures r.Ok? ==> r.value.nextCardId == b.nextCardId && r.value.nextTxId == b.nextTxId
    ensures r.Ok? ==> forall k :: k in b.cards ==> ExpireIfDue(b.cards[k], today) == Ok(r.value.cards[k])
  {
    if exists k :: k in b.cards && ExpireIfDue(b.cards[k], today).Err? then Err(NullDereference(None))
    else Ok(b.(cards := map k | k in b.cards :: ExpireIfDue(b.cards[k], today).value))
  }

  /** The sweep expires exactly the ACTIVE cards that are past their date,
      leaves every other card untouched, and running it twice is running it
      once. */
  lemma {:induction false} SweepExpiresExactlyTheDueCards(b: Bank, today: Date)
    requires CheckAndExpireCards(b, today).Ok?
    ensures var b' := CheckAndExpireCards(b, today).value;
            && (forall k :: k in b.cards ==>
                  (b'.cards[k].status == Some(Expired) <==>
                     b.cards[k].status == Some(Expired)
                     || (b.cards[k].status == Some(Active) && b.cards[k].expirationDate.value < today)))
            && (forall k :: k in b.cards && b'.cards[k] != b.cards[k] ==>
                  b'.cards[k] == b.cards[k].(status := Some(Expired)))
            && CheckAndExpireCards(b', today) == Ok(b')
  {
    var b' := CheckAndExpireCards(b, today).value;
    forall k | k in b'.cards ensures ExpireIfDue(b'.cards[k], today) == Ok(b'.cards[k]) {
      ExpireIfDueIdempotent(b.cards[k], today);
    }
    assert (map k | k in b'.cards :: ExpireIfDue(b'.cards[k], today).value) == b'.cards;
  }

  /** After a sweep the lazy check on read has nothing left to do: both paths
      apply the same rule. */
  lemma {:induction false} SweepThenReadChangesNothing(b: Bank, c: Cipher, userId: UserId, cardId: CardId, today: Date)
    requires CheckAndExpireCards(b, today).Ok?
    requires GetCardDetails(CheckAndExpireCards(b, today).value, c, userId, cardId, today).Ok?
    ensures GetCardDetails(CheckAndExpireCards(b, today).value, c, userId, cardId, today).value.0
              == CheckAndExpireCards(b, today).value
  {
    var b' := CheckAndExpireCards(b, today).value;
    ExpireIfDueIdempotent(b.cards[cardId], today);
    assert b'.cards[cardId := b'.cards[cardId]] == b'.cards;
  }

  // ----- status setters -----

  /** blockCard and requestCardBlock: the caller's own card gets the target
      status, whatever its current status. */
  function SetOwnedStatus(b: Bank, userId: UserId, cardId: CardId, status: CardStatus): (r: Result<Bank, Error>)
    ensures r.Err? <==> FindByIdAndOwnerId(b.cards, cardId, userId).None?
    ensures r.Err? ==> r.error == CardNotFoundOrAccessDenied(cardId)
    ensures r.Ok? ==> StatusSet(b, r.value, cardId, status)
  {
    match FindByIdAndOwnerId(b.cards, cardId, userId)
    case None => Err(CardNotFoundOrAccessDenied(cardId))
    case Some(card) => Ok(b.(cards := b.cards[cardId := card.(status := Some(status))]))
  }

  /** Only the status of one existing card changed, to `status`. */
  predicate StatusSet(b: Bank, b': Bank, cardId: CardId, status: CardStatus) {
    && cardId in b.cards
    && b'.cards.Keys == b.cards.Keys
    && b'.cards[cardId] == b.cards[cardId].(status := Some(status))
    && (forall k :: k in b.cards && k != cardId ==> b'.cards[k] == b.cards[k])
    && b'.ledger == b.ledger && b'.users == b.users && b'.nextCardId == b.nextCardId
    && b'.nextTxId == b.nextTxId
  }

  function BlockCard(b: Bank, userId: UserId, cardId: CardId): (r: Result<Bank, Error>)
    ensures r.Err? <==> FindByIdAndOwnerId(b.cards, cardId, userId).None?
    ensures r.Err? ==> r.error == CardNotFoundOrAccessDenied(cardId)
    ensures r.Ok? ==> StatusSet(b, r.value, cardId, Blocked)
  {
    SetOwnedStatus(b, userId, cardId, Blocked)
  }

  function RequestCardBlock(b: Bank, userId: UserId, cardId: CardId): (r: Result<Bank, Error>)
    ensures r.Err? <==> FindByIdAndOwnerId(b.cards, cardId, userId).None?
    ensures r.Err? ==> r.error == CardNotFoundOrAccessDenied(cardId)
    ensures r.Ok? ==> StatusSet(b, r.value, cardId, PendingBlock)
  {
    SetOwnedStatus(b, userId, cardId, PendingBlock)
  }

  /** updateCardStatusAsAdmin: any card, by id alone, gets any status. */
  function UpdateCardStatusAsAdmin(b: Bank, cardId: CardId, status: CardStatus): (r: Result<Bank, Error>)
    ensures r.Err? <==> cardId !in b.cards
    ensures r.Err? ==> r.error == CardNotFoundOrAccessDenied(cardId)
    ensures r.Ok? ==> StatusSet(b, r.value, cardId, status)
  {
    match FindById(b.cards, cardId)
    case None => Err(CardNotFoundOrAccessDenied(cardId))
    case Some(card) => Ok(b.(cards := b.cards[cardId := card.(status := Some(status))]))
  }

  /** No transition table is enforced: a BLOCKED or EXPIRED card can be sent
      back to PENDING_BLOCK by its owner and to ACTIVE by an administrator,
      and every setter is idempotent. */
  lemma {:induction false} SettersIgnoreCurrentStatus(b: Bank, userId: UserId, cardId: CardId)
    requires cardId in b.cards && b.cards[cardId].owner == Some(userId)
    requires b.cards[cardId].status in {Some(Blocked), Some(Expired)}
    ensures RequestCardBlock(b, userId, cardId).Ok?
    ensures RequestCardBlock(b, userId, cardId).value.cards[cardId].status == Some(PendingBlock)
    ensures UpdateCardStatusAsAdmin(b, cardId, Active).Ok?
    ensures UpdateCardStatusAsAdmin(b, cardId, Active).value.cards[cardId].status == Some(Active)
    ensures var b1 := BlockCard(b, userId, cardId).value;
            BlockCard(b1, userId, cardId) == Ok(b1)
  {
    var b1 := BlockCard(b, userId, cardId).value;
    assert FindByIdAndOwnerId(b1.cards, cardId, userId) == Some(b1.cards[cardId]);
    assert b1.cards[cardId := b1.cards[cardId].(status := Some(Blocked))] == b1.cards;
  }

  // ----- deleteCard -----

  /** deleteCard: removes the row if present; a missing id is ignored. */
  function DeleteCard(b: Bank, cardId: CardId): (r: Bank)
    ensures r.cards.Keys == b.cards.Keys - {cardId}
    ensures forall k :: k in r.cards ==> r.cards[k] == b.cards[k]
    ensures r.ledger == b.ledger && r.users == b.users
    ensures r.nextCardId == b.nextCardId && r.nextTxId == b.nextTxId
  {
    b.(cards := b.cards - {cardId})
  }

  /** After a delete the id is gone for every owner-scoped operation: reading,
      updating and blocking it all report CardNotFoundOrAccessDenied, and so
      does the administrator's status setter. */
  lemma DeletedCardIsGone(b: Bank, c: Cipher, userId: UserId, cardId: CardId, dto: CardRequest, today: Date, s: CardStatus)
    ensures var b' := DeleteCard(b, cardId);
            && GetCardDetails(b', c, userId, cardId, today) == Err(CardNotFoundOrAccessDenied(cardId))
            && UpdateCard(b', userId, cardId, dto) == Err(CardNotFoundOrAccessDenied(cardId))
            && BlockCard(b', userId, cardId) == Err(CardNotFoundOrAccessDenied(cardId))
            && UpdateCardStatusAsAdmin(b', cardId, s) == Err(CardNotFoundOrAccessDenied(cardId))
  {
  }

  // ----- listings -----

  /** `r` is `s` with some elements left out: the relative order is kept. */
  predicate Subsequence(r: seq<CardId>, s: seq<CardId>)
    decreases |s|
  {
    if r == [] then true
    else if s == [] then false
    else (r[0] == s[0] && Subsequence(r[1..], s[1..])) || Subsequence(r, s[1..])
  }

  /** The ids of `order` that are stored and kept, in scan order. */
  function SelectIds(cards: map<CardId, Card>, order: seq<CardId>, keep: Card -> bool): (r: seq<CardId>)
    ensures Subsequence(r, order)
    ensures forall i :: 0 <= i < |r| ==> r[i] in cards && keep(cards[r[i]])
    ensures forall k :: k in r ==> k in order
    ensures forall k :: k in order && k in cards && keep(cards[k]) ==> k in r
    ensures |r| <= |order|
  {
    if order == [] then []
    else
      var rest := SelectIds(cards, order[1..], keep);
      if order[0] in cards && keep(cards[order[0]]) then [order[0]] + rest else rest
  }

  lemma {:induction false} SelectIdsDistinct(cards: map<CardId, Card>, order: seq<CardId>, keep: Card -> bool)
    requires Distinct(order)
    ensures Distinct(SelectIds(cards, order, keep))
  {
    if order != [] {
      var rest := SelectIds(cards, order[1..], keep);
      assert Distinct(order[1..]) by {
        forall i, j | 0 <= i < j < |order[1..]| ensures order[1..][i] != order[1..][j] {
          assert order[1..][i] == order[i + 1] && order[1..][j] == order[j + 1];
        }
      }
      SelectIdsDistinct(cards, order[1..], keep);
      assert order[0] !in rest by {
        forall j | 0 <= j < |order[1..]| ensures order[1..][j] != order[0] {
          assert order[1..][j] == order[j + 1];
        }
      }
      if order[0] in cards && keep(cards[order[0]]) {
        var r := [order[0]] + rest;
        assert SelectIds(cards, order, keep) == r;
        forall i, j | 0 <= i < j < |r| ensures r[i] != r[j] {
          assert r[j] == rest[j - 1] && rest[j - 1] in rest;
          if i > 0 {
            assert r[i] == rest[i - 1];
          }
        }
      } else {
        assert SelectIds(cards, order, keep) == rest;
      }
    }
  }

  /** Map a projection over the selected rows; the first failure propagates. */
  function ProjectAll(c: Cipher, cs: seq<Card>, open: bool): (r: Result<seq<CardResponse>, Error>)
    ensures r.Ok? <==> forall i :: 0 <= i < |cs| ==> Project(c, cs[i], open).Ok?
    ensures r.Ok? ==> |r.value| == |cs| && forall i :: 0 <= i < |cs| ==> Project(c, cs[i], open) == Ok(r.value[i])
    ensures r.Err? ==>
              exists i :: && 0 <= i < |cs| && Project(c, cs[i], open) == Err(r.error)
                          && forall j :: 0 <= j < i ==> Project(c, cs[j], open).Ok?
  {
    if cs == [] then Ok([])
    else
      var head :- Project(c, cs[0], open);
      var rest :- ProjectAll(c, cs[1..], open);
      assert forall i :: 1 <= i < |cs| ==> cs[i] == cs[1..][i - 1];
      Ok([head] + rest)
  }

  /** The open view of a list of rows succeeds exactly when every row
      decrypts and has a status and an owner; each response then carries
      the full number and the status name. */
  lemma OpenProjection(c: Cipher, rows: seq<Card>)
    ensures var r := ProjectAll(c, rows, true);
            && (r.Ok? <==> forall i :: 0 <= i < |rows| ==>
                             c.dec(rows[i].cardNumber).Some? && rows[i].status.Some? && rows[i].owner.Some?)
            && (r.Ok? ==> |r.value| == |rows|)
            && (r.Ok? ==> forall i :: 0 <= i < |rows| ==>
                            && ToOpenDto(c, rows[i]) == Ok(r.value[i])
                            && Some(r.value[i].maskedCardNumber) == c.dec(rows[i].cardNumber)
                            && r.value[i].status == Some(StatusName(rows[i].status.value)))
  {
  }

  /** The toDto view of a list of rows succeeds exactly when every row
      decrypts, fails only with the decryption error, and each response is
      the toDto view of its row. */
  lemma ClosedProjection(c: Cipher, rows: seq<Card>)
    ensures var r := ProjectAll(c, rows, false);
            && (r.Ok? <==> forall i :: 0 <= i < |rows| ==> c.dec(rows[i].cardNumber).Some?)
            && (r.Err? ==> r.error == DecryptionFailed)
            && (r.Ok? ==> |r.value| == |rows| && forall i :: 0 <= i < |rows| ==> ToDto(c, rows[i]) == Ok(r.value[i]))
  {
  }

  function Project(c: Cipher, card: Card, open: bool): Result<CardResponse, Error> {
    if open then ToOpenDto(c, card) else ToDto(c, card)
  }

  function Rows(cards: map<CardId, Card>, ids: seq<CardId>): (r: seq<Card>)
    requires forall i :: 0 <= i < |ids| ==> ids[i] in cards
    ensures |r| == |ids| && forall i :: 0 <= i < |ids| ==> r[i] == cards[ids[i]]
  {
    seq(|ids|, i requires 0 <= i < |ids| => cards[ids[i]])
  }

  /** getUserCards (without the page slice): the owner's cards that meet
      every present filter, in scan order, through toDto. */
  function GetUserCards(b: Bank, c: Cipher, order: seq<CardId>, f: CardFilter): (r: Result<seq<CardResponse>, Error>)
    ensures var ids := SelectIds(b.cards, order, (card: Card) => Satisfies(BuildSpec(f), card));
            r.Ok? <==> forall i :: 0 <= i < |ids| ==> c.dec(b.cards[ids[i]].cardNumber).Some?
    ensures r.Err? ==> r.error == DecryptionFailed
    ensures r.Ok? ==>
              var ids := SelectIds(b.cards, order, (card: Card) => Satisfies(BuildSpec(f), card));
              && |r.value| == |ids|
              && forall i :: 0 <= i < |ids| ==> Matches(f, b.cards[ids[i]]) && ToDto(c, b.cards[ids[i]]) == Ok(r.value[i])
  {
    var ids := SelectIds(b.cards, order, (card: Card) => Satisfies(BuildSpec(f), card));
    forall i | 0 <= i < |ids| ensures Matches(f, b.cards[ids[i]]) {
      BuildSpecMeansMatches(f, b.cards[ids[i]]);
    }
    var rows := Rows(b.cards, ids);
    ClosedProjection(c, rows);
    assert forall i :: 0 <= i < |ids| ==> rows[i] == b.cards[ids[i]];
    ProjectAll(c, rows, false)
  }

  /** Every stored card that meets the filter is listed, once. */
  lemma {:induction false} GetUserCardsComplete(b: Bank, c: Cipher, order: seq<CardId>, f: CardFilter)
    requires IsScanOrder(b.cards, order)
    ensures var ids := SelectIds(b.cards, order, (card: Card) => Satisfies(BuildSpec(f), card));
            && (forall k :: k in ids <==> k in b.cards && Matches(f, b.cards[k]))
            && Distinct(ids)
  {
    var keep := (card: Card) => Satisfies(BuildSpec(f), card);
    var ids := SelectIds(b.cards, order, keep);
    SelectIdsDistinct(b.cards, order, keep);
    forall k | k in b.cards ensures Matches(f, b.cards[k]) <==> keep(b.cards[k]) {
      BuildSpecMeansMatches(f, b.cards[k]);
    }
  }

  /** The query findAllByStatus(PENDING_BLOCK), as ids in scan order. */
  function PendingBlockIds(b: Bank, order: seq<CardId>): (ids: seq<CardId>)
    ensures Subsequence(ids, order)
    ensures forall i :: 0 <= i < |ids| ==> ids[i] in b.cards && b.cards[ids[i]].status == Some(PendingBlock)
  {
    SelectIds(b.cards, order, (card: Card) => card.status == Some(PendingBlock))
  }

  /** findCardsPendingBlock: every PENDING_BLOCK card, through toOpenDto, so
      the number is shown in full. */
  function FindCardsPendingBlock(b: Bank, c: Cipher, order: seq<CardId>): (r: Result<seq<CardResponse>, Error>)
    ensures var ids := PendingBlockIds(b, order);
            r.Ok? <==> forall i :: 0 <= i < |ids| ==>
                         c.dec(b.cards[ids[i]].cardNumber).Some? && b.cards[ids[i]].owner.Some?
    ensures r.Ok? ==>
              var ids := PendingBlockIds(b, order);
              && |r.value| == |ids|
              && forall i :: 0 <= i < |ids| ==>
                   && b.cards[ids[i]].status == Some(PendingBlock)
                   && ToOpenDto(c, b.cards[ids[i]]) == Ok(r.value[i])
                   && r.value[i].status == Some("PENDING_BLOCK")
                   && Some(r.value[i].maskedCardNumber) == c.dec(b.cards[ids[i]].cardNumber)
  {
    var ids := PendingBlockIds(b, order);
    var rows := Rows(b.cards, ids);
    OpenProjection(c, rows);
    assert forall i :: 0 <= i < |ids| ==> rows[i] == b.cards[ids[i]];
    ProjectAll(c, rows, true)
  }

  /** Every PENDING_BLOCK card, and no other, is selected. */
  lemma PendingBlockSelection(b: Bank, order: seq<CardId>)
    requires IsScanOrder(b.cards, order)
    ensures var ids := PendingBlockIds(b, order);
            forall k :: k in ids <==> k in b.cards && b.cards[k].status == Some(PendingBlock)
  {
  }

  /** The query findAll(), as ids in scan order. */
  function AllIds(b: Bank, order: seq<CardId>): (ids: seq<CardId>)
    ensures Subsequence(ids, order)
    ensures forall i :: 0 <= i < |ids| ==> ids[i] in b.cards
    ensures forall k :: k in order && k in b.cards ==> k in ids
  {
    SelectIds(b.cards, order, (card: Card) => true)
  }

  /** getAllCards: every card, through toOpenDto. */
  function GetAllCards(b: Bank, c: Cipher, order: seq<CardId>): (r: Result<seq<CardResponse>, Error>)
    ensures var ids := AllIds(b, order);
            r.Ok? <==> forall i :: 0 <= i < |ids| ==>
                         && c.dec(b.cards[ids[i]].cardNumber).Some?
                         && b.cards[ids[i]].status.Some? && b.cards[ids[i]].owner.Some?
    ensures r.Ok? ==>
              var ids := AllIds(b, order);
              && |r.value| == |ids|
              && forall i :: 0 <= i < |ids| ==>
                   && ToOpenDto(c, b.cards[ids[i]]) == Ok(r.value[i])
                   && Some(r.value[i].maskedCardNumber) == c.dec(b.cards[ids[i]].cardNumber)
  {
    var ids := AllIds(b, order);
    var rows := Rows(b.cards, ids);
    OpenProjection(c, rows);
    assert forall i :: 0 <= i < |ids| ==> rows[i] == b.cards[ids[i]];
    ProjectAll(c, rows, true)
  }
}

=== FILE: card_specification.dfy ===
/** CardSpecification and the way getUserCards chains its criteria: the
    owner criterion always, then each optional criterion only when its
    parameter is present. A SQL comparison with a null column is not true,
    so a card without an expiration date never passes the date criterion. */
module CardSpecification {
  import opened Wrappers
  import opened Entities

  predicate HasOwnerId(card: Card, ownerId: UserId) {
    card.owner == Some(ownerId)
  }

  predicate HasStatus(card: Card, status: CardStatus) {
    card.status == Some(status)
  }

  predicate HasExpirationBefore(card: Card, date: Date) {
    card.expirationDate.Some? && card.expirationDate.value < date
  }

  predicate BalanceGreaterThan(card: Card, min: Money) {
    card.balance > min
  }

  predicate BalanceLessThan(card: Card, max: Money) {
    card.balance < max
  }

  /** One `Specification<Card>` built by the class. */
  datatype Criterion =
    | OwnerIs(ownerId: UserId)
    | StatusIs(status: CardStatus)
    | ExpiresBefore(date: Date)
    | BalanceAbove(min: Money)
    | BalanceBelow(max: Money)

  predicate Holds(k: Criterion, card: Card) {
    match k
    case OwnerIs(o) => HasOwnerId(card, o)
    case StatusIs(s) => HasStatus(card, s)
    case ExpiresBefore(d) => HasExpirationBefore(card, d)
    case BalanceAbove(m) => BalanceGreaterThan(card, m)
    case BalanceBelow(m) => BalanceLessThan(card, m)
  }

  /** A chain `where(a).and(b).and(c)`: every criterion must hold. */
  predicate Satisfies(spec: seq<Criterion>, card: Card) {
    forall i :: 0 <= i < |spec| ==> Holds(spec[i], card)
  }

  /** The listing parameters; None is a null request parameter. */
  datatype CardFilter = CardFilter(
    ownerId: UserId,
    status: Option<CardStatus>,
    expirationBefore: Option<Date>,
    minBalance: Option<Money>,
    maxBalance: Option<Money>)

  /** The chain getUserCards builds: owner first, then each non-null
      parameter in declaration order. */
  function BuildSpec(f: CardFilter): (spec: seq<Criterion>)
    ensures |spec| >= 1 && spec[0] == OwnerIs(f.ownerId)
  {
    [OwnerIs(f.ownerId)]
    + (if f.status.Some? then [StatusIs(f.status.value)] else [])
    + (if f.expirationBefore.Some? then [ExpiresBefore(f.expirationBefore.value)] else [])
    + (if f.minBalance.Some? then [BalanceAbove(f.minBalance.value)] else [])
    + (if f.maxBalance.Some? then [BalanceBelow(f.maxBalance.value)] else [])
  }

  /** The declarative reading of a filter: the owner matches and every
      present parameter is met; an absent parameter constrains nothing. */
  predicate Matches(f: CardFilter, card: Card) {
    && card.owner == Some(f.ownerId)
    && (f.status.None? || card.status == f.status)
    && (f.expirationBefore.None? || (card.expirationDate.Some? && card.expirationDate.value < f.expirationBefore.value))
    && (f.minBalance.None? || f.minBalance.value < card.balance)
    && (f.maxBalance.None? || card.balance < f.maxBalance.value)
  }

  lemma SatisfiesAppend(a: seq<Criterion>, b: seq<Criterion>, card: Card)
    ensures Satisfies(a + b, card) <==> Satisfies(a, card) && Satisfies(b, card)
  {
    if Satisfies(a, card) && Satisfies(b, card) {
      forall i | 0 <= i < |a + b| ensures Holds((a + b)[i], card) {
        if i < |a| { assert (a + b)[i] == a[i]; } else { assert (a + b)[i] == b[i - |a|]; }
      }
    }
    if Satisfies(a + b, card) {
      forall i | 0 <= i < |a| ensures Holds(a[i], card) { assert (a + b)[i] == a[i]; }
      forall i | 0 <= i < |b| ensures Holds(b[i], card) { assert (a + b)[|a| + i] == b[i]; }
    }
  }

  /** The built chain accepts exactly the cards the declarative filter
      describes: the criteria are conjoined, and absent ones are omitted. */
  lemma {:induction false} BuildSpecMeansMatches(f: CardFilter, card: Card)
    ensures Satisfies(BuildSpec(f), card) <==> Matches(f, card)
  {
    var s1: seq<Criterion> := [OwnerIs(f.ownerId)];
    var s2: seq<Criterion> := if f.status.Some? then [StatusIs(f.status.value)] else [];
    var s3: seq<Criterion> := if f.expirationBefore.Some? then [ExpiresBefore(f.expirationBefore.value)] else [];
    var s4: seq<Criterion> := if f.minBalance.Some? then [BalanceAbove(f.minBalance.value)] else [];
    var s5: seq<Criterion> := if f.maxBalance.Some? then [BalanceBelow(f.maxBalance.value)] else [];
    assert BuildSpec(f) == s1 + s2 + s3 + s4 + s5;
    SatisfiesAppend(s1 + s2 + s3 + s4, s5, card);
    SatisfiesAppend(s1 + s2 + s3, s4, card);
    SatisfiesAppend(s1 + s2, s3, card);
    SatisfiesAppend(s1, s2, card);
    assert Satisfies(s1, card) <==> Holds(s1[0], card);
    assert Satisfies(s2, card) <==> (f.status.None? || Holds(s2[0], card));
    assert Satisfies(s3, card) <==> (f.expirationBefore.None? || Holds(s3[0], card));
    assert Satisfies(s4, card) <==> (f.minBalance.None? || Holds(s4[0], card));
    assert Satisfies(s5, card) <==> (f.maxBalance.None? || Holds(s5[0], card));
  }

  /** Every comparison is strict and a null column never matches: a card
      whose balance equals a bound, or whose date equals the cut-off, or
      that has no date, is left out. */
  lemma BoundsAreStrict(card: Card, m: Money, d: Date)
    ensures card.balance == m ==> !BalanceGreaterThan(card, m) && !BalanceLessThan(card, m)
    ensures card.expirationDate == Some(d) ==> !HasExpirationBefore(card, d)
    ensures card.expirationDate.None? ==> !HasExpirationBefore(card, d)
    ensures HasExpirationBefore(card, d) <==> card.expirationDate.Some? && card.expirationDate.value < d
  {
  }
}

=== FILE: crypto.dfy ===
/** EncryptionUtil, abstracted: the AES/Base64 pair becomes a pair of function
    values. `enc` is total (its only failure, a null input, is modelled by the
    caller); `dec` returns None where the utility throws "Error decrypting". */
module Crypto {
  import opened Wrappers

  datatype Cipher = Cipher(enc: string -> string, dec: string -> Option<string>)

  /** The one fact assumed of the key: decrypting an encryption gives the
      plaintext back. */
  ghost predicate Sound(c: Cipher) {
    forall x :: c.dec(c.enc(x)) == Some(x)
  }

  /** A sound cipher is deterministic and injective, so equal ciphertexts
      mean equal card numbers. */
  lemma EncInjective(c: Cipher, x: string, y: string)
    requires Sound(c)
    requires c.enc(x) == c.enc(y)
    ensures x == y
  {
    assert c.dec(c.enc(x)) == Some(x);
    assert c.dec(c.enc(y)) == Some(y);
  }

  /** A concrete sound cipher used by the counterexamples: a marker character
      is prepended, and anything without the marker fails to decrypt, as a
      16-digit plaintext fails AES decryption (12 Base64 bytes are not a
      whole block). */
  function Tagging(): (c: Cipher)
    ensures Sound(c)
    ensures forall s :: |s| == 0 || s[0] != '#' ==> c.dec(s) == None
  {
    Cipher(x => "#" + x, y => if |y| > 0 && y[0] == '#' then Some(y[1..]) else None)
  }
}

=== FILE: entities.dfy ===
/** The persistent entities: `Card` (entity/Card.java), its status enum and the
    ledger row `CardTransaction` (entity/CardTransaction.java). Java `Long` ids
    are unbounded integers, `LocalDate` is a day number, `LocalDateTime` a tick
    count and `BigDecimal` an exact `real`; a Java field that may hold `null`
    is an `Option`. */
module Entities {
  import opened Wrappers

  type CardId = int
  type UserId = int
  type Date = int
  type DateTime = int
  type Money = real

  datatype CardStatus = Active | Expired | Blocked | PendingBlock

  /** `Enum.name()` of the card status. */
  function StatusName(s: CardStatus): string {
    match s
    case Active => "ACTIVE"
    case Expired => "EXPIRED"
    case Blocked => "BLOCKED"
    case PendingBlock => "PENDING_BLOCK"
  }

  /** A card row. `cardNumber` is whatever string is stored in the column:
      the ciphertext written at issuance, or (after an update) a plaintext. */
  datatype Card = Card(
    id: Option<CardId>,
    cardNumber: string,
    expirationDate: Option<Date>,
    status: Option<CardStatus>,
    balance: Money,
    owner: Option<UserId>)

  /** A ledger row; the ids are those of the sender and receiver cards. */
  datatype CardTransaction = CardTransaction(
    id: Option<int>,
    amount: Money,
    timestamp: Option<DateTime>,
    fromCard: CardId,
    toCard: CardId,
    description: Option<string>)

  const MaskPrefix: string := "**** **** **** "
  const MaskFallback: string := "****"

  /** Card.getMaskedCardNumber: the prefix followed by the last four characters.
      A null argument (NullPointerException) and a string shorter than four
      (negative substring index) are both caught and give the fallback. */
  function MaskedCardNumber(decrypted: Option<string>): (r: string)
    ensures r == MaskFallback <==> decrypted.None? || |decrypted.value| < 4
    ensures r != MaskFallback ==>
              && |r| == 19
              && r[..15] == MaskPrefix
              && r[15..] == decrypted.value[|decrypted.value| - 4..]
  {
    match decrypted
    case None => MaskFallback
    case Some(s) =>
      if |s| < 4 then MaskFallback else MaskPrefix + s[|s| - 4..]
  }

  /** Two numbers that end in the same four characters mask identically. */
  lemma MaskDependsOnlyOnLastFour(s: string, t: string)
    requires |s| >= 4 && |t| >= 4
    requires s[|s| - 4..] == t[|t| - 4..]
    ensures MaskedCardNumber(Some(s)) == MaskedCardNumber(Some(t))
  {
  }

  /** Masking the number used by CardServiceTest.createCard_success. */
  lemma MaskExample()
    ensures MaskedCardNumber(Some("1234567812345678")) == "**** **** **** 5678"
    ensures MaskedCardNumber(Some("123")) == "****"
    ensures MaskedCardNumber(None) == "****"
  {
  }
}

=== FILE: errors.dfy ===
/** The exceptions the core throws, one constructor per exception class of the
    exception package, plus the JDK and Spring exceptions the core lets escape.
    `Message` is `Throwable.getMessage()` of each. */
module Errors {
  import opened Wrappers
  import opened Entities

  datatype Error =
    | UserNotFound(userId: UserId)
    | UserNotFoundLogin(username: string)
    | UsernameExists(username: string)
    | RoleNotFound(roleId: int)
    | CardNotFoundOrAccessDenied(cardId: CardId)
    | InvalidCardNumber(given: Option<string>)
    | CardAlreadyExists(number: string)
    | CardIsNotActive(status: Option<CardStatus>)
      /** the plain RuntimeException("Insufficient funds") of a transfer */
    | InsufficientFunds
      /** RuntimeException("Error encrypting") / ("Error decrypting") */
    | EncryptionFailed
    | DecryptionFailed
      /** a NullPointerException; `detail` is None for a JVM-raised one */
    | NullDereference(detail: Option<string>)
    | IllegalArgument(message: string)
      /** Spring Security's AccessDeniedException and AuthenticationException */
    | AccessDenied(message: string)
    | AuthenticationFailed(message: string)
      /** only raised by the corrected transfer (see TransferService) */
    | NonPositiveAmount(amount: Money)
    | SameCard(cardId: CardId)

  function DigitChar(d: nat): char
    requires d < 10
  {
    "0123456789"[d]
  }

  /** Decimal rendering of a Java long, as string concatenation prints it. */
  function NatToString(n: nat): string
    decreases n
  {
    if n < 10 then [DigitChar(n)] else NatToString(n / 10) + [DigitChar(n % 10)]
  }

  function IntToString(i: int): string {
    if i < 0 then "-" + NatToString(-i) else NatToString(i)
  }

  /** Java's `"..." + ref` prints `null` for a null reference. */
  function OrNull(s: Option<string>): string {
    s.GetOr("null")
  }

  function Message(e: Error): Option<string> {
    match e
    case UserNotFound(id) => Some("User '" + IntToString(id) + "' not found")
    case UserNotFoundLogin(u) => Some("User with login '" + u + "' not found")
    case UsernameExists(u) => Some("Username already exists: " + u)
    case RoleNotFound(id) => Some("Role '" + IntToString(id) + "' not found")
    case CardNotFoundOrAccessDenied(id) =>
      Some("Card not found or access denied, card id - " + IntToString(id))
    case InvalidCardNumber(n) =>
      Some("Неверный формат номера карты. Номер должен состоять из 16 цифр: " + OrNull(n))
    case CardAlreadyExists(n) => Some("Card number already exists: " + n)
    case CardIsNotActive(s) =>
      Some("One of the cards is not active: " + (if s.Some? then StatusName(s.value) else "null"))
    case InsufficientFunds => Some("Insufficient funds")
    case EncryptionFailed => Some("Error encrypting")
    case DecryptionFailed => Some("Error decrypting")
    case NullDereference(m) => m
    case IllegalArgument(m) => Some(m)
    case AccessDenied(m) => Some(m)
    case AuthenticationFailed(m) => Some(m)
    case NonPositiveAmount(a) => Some("Transfer amount must be positive")
    case SameCard(id) => Some("Cannot transfer to the same card, card id - " + IntToString(id))
  }
}

=== FILE: exception_handler.dfy ===
/** GlobalExceptionHandler: the HTTP status chosen for each exception and
    the JSON body written for it. Exceptions that no specific handler names
    (among them UserNotFound and the insufficient-funds RuntimeException)
    fall to the catch-all handler and give 500. */
module GlobalExceptionHandler {
  import opened Wrappers
  import opened Entities
  import opened Errors

  function StatusFor(e: Error): (code: int)
    ensures code == 404 <==> e.UserNotFoundLogin? || e.CardNotFoundOrAccessDenied? || e.RoleNotFound?
    ensures code == 400 <==> e.InvalidCardNumber? || e.CardIsNotActive?
    ensures code == 409 <==> e.CardAlreadyExists? || e.UsernameExists?
    ensures code == 403 <==> e.AccessDenied?
    ensures code == 401 <==> e.AuthenticationFailed?
    ensures code in {400, 401, 403, 404, 409, 500}
  {
    match e
    case UserNotFoundLogin(_) => 404
    case CardNotFoundOrAccessDenied(_) => 404
    case RoleNotFound(_) => 404
    case InvalidCardNumber(_) => 400
    case CardIsNotActive(_) => 400
    case CardAlreadyExists(_) => 409
    case UsernameExists(_) => 409
    case AccessDenied(_) => 403
    case AuthenticationFailed(_) => 401
    case _ => 500
  }

  /** HttpStatus.getReasonPhrase for the codes the handler uses. */
  function ReasonPhrase(code: int): string {
    match code
    case 400 => "Bad Request"
    case 401 => "Unauthorized"
    case 403 => "Forbidden"
    case 404 => "Not Found"
    case 409 => "Conflict"
    case _ => "Internal Server Error"
  }

  datatype ErrorBody = ErrorBody(timestamp: DateTime, status: int, error: string, message: Option<string>)

  /** buildErrorResponse: the response status and the body's status agree,
      and the body repeats the exception's message. */
  function BuildErrorResponse(e: Error, now: DateTime): (r: (int, ErrorBody))
    ensures r.0 == StatusFor(e) && r.1.status == r.0
    ensures r.1.message == Message(e)
    ensures r.1.timestamp == now
    ensures r.1.error == ReasonPhrase(r.0)
  {
    var code := StatusFor(e);
    (code, ErrorBody(now, code, ReasonPhrase(code), Message(e)))
  }

  /** The errors of the transfer and issuance paths that have no handler of
      their own become 500. */
  lemma UnhandledKindsAreServerErrors(uid: UserId)
    ensures StatusFor(InsufficientFunds) == 500
    ensures StatusFor(UserNotFound(uid)) == 500
    ensures StatusFor(DecryptionFailed) == 500
    ensures StatusFor(NullDereference(None)) == 500
    ensures BuildErrorResponse(InsufficientFunds, 0).1.message == Some("Insufficient funds")
  {
  }
}

=== FILE: repository.dfy ===
/** The persistent state and the repository queries over it. Cards are a map
    from id to row (CardRepository); the ledger is the sequence of saved
    transactions in insertion order (CardTransactionRepository); `nextCardId`
    and `nextTxId` are the identity sequences. A scan such as `findAll` or
    `findAllByStatus` returns rows in an order the database chooses: it is
    the parameter `order`, a listing of the ids. */
module Repository {
  import opened Wrappers
  import opened Entities

  datatype Bank = Bank(
    users: set<UserId>,
    cards: map<CardId, Card>,
    ledger: seq<CardTransaction>,
    nextCardId: CardId,
    nextTxId: int)

  /** Rows are keyed by their own id and the identity sequence is ahead of
      every key. */
  predicate WellFormed(b: Bank) {
    forall k :: k in b.cards ==> b.cards[k].id == Some(k) && k < b.nextCardId
  }

  /** findByIdAndOwnerId: the row with that id whose owner has that id. */
  function FindByIdAndOwnerId(cards: map<CardId, Card>, id: CardId, ownerId: UserId): Option<Card> {
    if id in cards && cards[id].owner == Some(ownerId) then Some(cards[id]) else None
  }

  function FindById(cards: map<CardId, Card>, id: CardId): Option<Card> {
    if id in cards then Some(cards[id]) else None
  }

  /** existsByCardNumber: some row stores exactly this string. */
  predicate ExistsByCardNumber(cards: map<CardId, Card>, number: string) {
    exists k :: k in cards && cards[k].cardNumber == number
  }

  predicate Distinct(s: seq<CardId>) {
    forall i, j :: 0 <= i < j < |s| ==> s[i] != s[j]
  }

  /** `order` lists every stored id exactly once. */
  predicate IsScanOrder(cards: map<CardId, Card>, order: seq<CardId>) {
    && Distinct(order)
    && (forall k :: k in cards ==> k in order)
    && (forall i :: 0 <= i < |order| ==> order[i] in cards)
  }

  // ----- findAllByCardId: WHERE from = id OR to = id ORDER BY timestamp DESC -----

  predicate Involves(t: CardTransaction, cardId: CardId) {
    t.fromCard == cardId || t.toCard == cardId
  }

  /** Descending order on a nullable timestamp; a null sorts as the largest
      value, so it comes first (the PostgreSQL default for DESC). */
  predicate AtOrAfter(a: Option<DateTime>, b: Option<DateTime>) {
    a.None? || (b.Some? && a.value >= b.value)
  }

  predicate SortedDesc(s: seq<CardTransaction>) {
    forall i, j :: 0 <= i < j < |s| ==> AtOrAfter(s[i].timestamp, s[j].timestamp)
  }

  /** The row filter: every row that mentions the card, once, in ledger order. */
  function Involving(ledger: seq<CardTransaction>, cardId: CardId): (r: seq<CardTransaction>)
    ensures forall t :: multiset(r)[t] == if Involves(t, cardId) then multiset(ledger)[t] else 0
  {
    if ledger == [] then []
    else
      assert ledger == [ledger[0]] + ledger[1..];
      (if Involves(ledger[0], cardId) then [ledger[0]] else []) + Involving(ledger[1..], cardId)
  }

  function InsertDesc(t: CardTransaction, s: seq<CardTransaction>): (r: seq<CardTransaction>)
    requires SortedDesc(s)
    ensures multiset(r) == multiset(s) + multiset{t}
    ensures SortedDesc(r)
    ensures |r| > 0 && (r[0] == t || (|s| > 0 && r[0] == s[0]))
  {
    if s == [] || AtOrAfter(t.timestamp, s[0].timestamp) then [t] + s
    else
      assert s == [s[0]] + s[1..];
      [s[0]] + InsertDesc(t, s[1..])
  }

  /** A stable insertion sort by timestamp, newest first. */
  function SortDesc(s: seq<CardTransaction>): (r: seq<CardTransaction>)
    ensures multiset(r) == multiset(s)
    ensures SortedDesc(r)
  {
    if s == [] then []
    else
      assert s == [s[0]] + s[1..];
      InsertDesc(s[0], SortDesc(s[1..]))
  }

  /** findAllByCardId (without the page slice): every transaction in which the
      card is sender or receiver, exactly as often as it is in the ledger
      (a self-transfer appears once), and nothing else, newest first. */
  function FindAllByCardId(ledger: seq<CardTransaction>, cardId: CardId): (r: seq<CardTransaction>)
    ensures forall t :: t in r ==> Involves(t, cardId)
    ensures forall t :: t in ledger && Involves(t, cardId) ==> t in r
    ensures forall t :: multiset(r)[t] == if Involves(t, cardId) then multiset(ledger)[t] else 0
    ensures SortedDesc(r)
  {
    var r := SortDesc(Involving(ledger, cardId));
    assert forall t :: t in r <==> multiset(r)[t] > 0;
    assert forall t :: t in ledger <==> multiset(ledger)[t] > 0;
    r
  }
}

=== FILE: transfer_service.dfy ===
/** CardTransactionService: a transfer between two cards of one user, and a
    card's transaction history. All checks read the state before the call;
    only when every check passes are the two balances changed and one ledger
    row appended. The two lookups of one card return the same managed entity,
    so a transfer from a card to itself debits and then credits that one
    row. */
module TransferService {
  import opened Wrappers
  import opened Entities
  import opened Errors
  import opened Repository

  /** CardTransferRequestDto. */
  datatype TransferRequest = TransferRequest(
    fromCardId: CardId,
    toCardId: CardId,
    amount: Money,
    description: Option<string>)

  /** Debit, credit (re-reading the row, so an aliased card nets to zero),
      and append the ledger row; its timestamp is never assigned. */
  function Apply(b: Bank, req: TransferRequest): (r: (Bank, CardTransaction))
    requires req.fromCardId in b.cards && req.toCardId in b.cards
  {
    var from := b.cards[req.fromCardId];
    var debited := b.cards[req.fromCardId := from.(balance := from.balance - req.amount)];
    var to := debited[req.toCardId];
    var credited := debited[req.toCardId := to.(balance := to.balance + req.amount)];
    var tx := CardTransaction(Some(b.nextTxId), req.amount, None, req.fromCardId, req.toCardId, req.description);
    (b.(cards := credited, ledger := b.ledger + [tx], nextTxId := b.nextTxId + 1), tx)
  }

  /** The state after a successful transfer: the sender is debited and the
      receiver credited (a self-transfer keeps the balance), every other
      field and row is kept, and exactly one row carrying the request is
      appended to the ledger; that row uses up the next transaction id. */
  predicate Transferred(b: Bank, b': Bank, tx: CardTransaction, req: TransferRequest) {
    var f := req.fromCardId;
    var t := req.toCardId;
    && f in b.cards && t in b.cards
    && b'.cards.Keys == b.cards.Keys
    && (f != t ==>
          b'.cards[f].balance == b.cards[f].balance - req.amount && b'.cards[t].balance == b.cards[t].balance + req.amount)
    && (f == t ==> b'.cards[f] == b.cards[f])
    && (forall k :: k in b.cards ==> b'.cards[k] == b.cards[k].(balance := b'.cards[k].balance))
    && (forall k :: k in b.cards && k != f && k != t ==> b'.cards[k] == b.cards[k])
    && tx == CardTransaction(Some(b.nextTxId), req.amount, None, f, t, req.description)
    && b'.ledger == b.ledger + [tx]
    && b'.users == b.users && b'.nextCardId == b.nextCardId
    && b'.nextTxId == b.nextTxId + 1
  }

  /** transferBetweenOwnCards as written. The missing-receiver error names the
      SENDER id, and the inactive-card error always carries the receiver's
      status; there is no check on the sign of the amount or on the two ids
      being different. */
  function Transfer(b: Bank, userId: UserId, req: TransferRequest): (r: Result<(Bank, CardTransaction), Error>)
    ensures FindByIdAndOwnerId(b.cards, req.fromCardId, userId).None? ==> r == Err(CardNotFoundOrAccessDenied(req.fromCardId))
    ensures FindByIdAndOwnerId(b.cards, req.toCardId, userId).None? ==> r == Err(CardNotFoundOrAccessDenied(req.fromCardId))
    ensures (Owned(b, userId, req) && !BothActive(b, req))
              ==> r == Err(CardIsNotActive(b.cards[req.toCardId].status))
    ensures (Owned(b, userId, req) && BothActive(b, req) && b.cards[req.fromCardId].balance < req.amount)
              ==> r == Err(InsufficientFunds)
    ensures r.Ok? <==> Owned(b, userId, req) && BothActive(b, req) && req.amount <= b.cards[req.fromCardId].balance
    ensures r.Ok? ==> Transferred(b, r.value.0, r.value.1, req)
  {
    match FindByIdAndOwnerId(b.cards, req.fromCardId, userId)
    case None => Err(CardNotFoundOrAccessDenied(req.fromCardId))
    case Some(from) =>
      match FindByIdAndOwnerId(b.cards, req.toCardId, userId)
      case None => Err(CardNotFoundOrAccessDenied(req.fromCardId))
      case Some(to) =>
        if from.status != Some(Active) || to.status != Some(Active) then Err(CardIsNotActive(to.status))
        else if from.balance < req.amount then Err(InsufficientFunds)
        else Ok(Apply(b, req))
  }

  predicate Owned(b: Bank, userId: UserId, req: TransferRequest) {
    && FindByIdAndOwnerId(b.cards, req.fromCardId, userId).Some?
    && FindByIdAndOwnerId(b.cards, req.toCardId, userId).Some?
  }

  predicate BothActive(b: Bank, req: TransferRequest)
    requires req.fromCardId in b.cards && req.toCardId in b.cards
  {
    b.cards[req.fromCardId].status == Some(Active) && b.cards[req.toCardId].status == Some(Active)
  }

  // ----- conservation -----

  /** The sum of the balances of the listed ids that are stored. */
  function Total(cards: map<CardId, Card>, ids: seq<CardId>): Money {
    if ids == [] then 0.0
    else (if ids[0] in cards then cards[ids[0]].balance else 0.0) + Total(cards, ids[1..])
  }

  lemma {:induction false} TotalShift(cards: map<CardId, Card>, cards': map<CardId, Card>, ids: seq<CardId>,
                                      f: CardId, t: CardId, a: Money)
    requires f != t && f in cards && t in cards && Distinct(ids)
    requires cards'.Keys == cards.Keys
    requires cards'[f].balance == cards[f].balance - a && cards'[t].balance == cards[t].balance + a
    requires forall k :: k in cards && k != f && k != t ==> cards'[k].balance == cards[k].balance
    ensures Total(cards', ids) == Total(cards, ids) - (if f in ids then a else 0.0) + (if t in ids then a else 0.0)
  {
    if ids != [] {
      var rest := ids[1..];
      assert Distinct(rest) by {
        forall i, j | 0 <= i < j < |rest| ensures rest[i] != rest[j] {
          assert rest[i] == ids[i + 1] && rest[j] == ids[j + 1];
        }
      }
      TotalShift(cards, cards', rest, f, t, a);
      assert ids[0] !in rest by {
        forall j | 0 <= j < |rest| ensures rest[j] != ids[0] { assert rest[j] == ids[j + 1]; }
      }
      assert forall x :: x in ids <==> x == ids[0] || x in rest by {
        assert ids == [ids[0]] + rest;
      }
    }
  }

  /** Money is conserved: over any listing of distinct ids that names both
      cards or neither (in particular a scan of all cards), the total balance
      after a successful transfer equals the total before. */
  lemma {:induction false} TransferConservesMoney(b: Bank, userId: UserId, req: TransferRequest, ids: seq<CardId>)
    requires Transfer(b, userId, req).Ok?
    requires Distinct(ids)
    requires req.fromCardId in ids <==> req.toCardId in ids
    ensures Total(Transfer(b, userId, req).value.0.cards, ids) == Total(b.cards, ids)
  {
    var b' := Transfer(b, userId, req).value.0;
    if req.fromCardId == req.toCardId {
      assert b'.cards == b.cards;
    } else {
      TotalShift(b.cards, b'.cards, ids, req.fromCardId, req.toCardId, req.amount);
    }
  }

  lemma TransferConservesTotalOverScan(b: Bank, userId: UserId, req: TransferRequest, order: seq<CardId>)
    requires Transfer(b, userId, req).Ok?
    requires IsScanOrder(b.cards, order)
    ensures Total(Transfer(b, userId, req).value.0.cards, order) == Total(b.cards, order)
  {
    TransferConservesMoney(b, userId, req, order);
  }

  /** The scenario of CardTransactionServiceTest.transferBetweenOwnCards_successfulTransfer and
      _insufficientFunds: 100.00 and 50.00, transfer 30.00. */
  lemma TransferExample()
    ensures var a := Card(Some(1), "#a", Some(100), Some(Active), 100.0, Some(9));
            var c := Card(Some(2), "#b", Some(100), Some(Active), 50.0, Some(9));
            var b := Bank({9}, map[1 := a, 2 := c], [], 3, 1);
            var r := Transfer(b, 9, TransferRequest(1, 2, 30.0, Some("test transfer")));
            && r.Ok?
            && r.value.0.cards[1].balance == 70.0
            && r.value.0.cards[2].balance == 80.0
            && r.value.0.ledger == [CardTransaction(Some(1), 30.0, None, 1, 2, Some("test transfer"))]
    ensures var a := Card(Some(1), "#a", Some(100), Some(Active), 100.0, Some(9));
            var c := Card(Some(2), "#b", Some(100), Some(Active), 50.0, Some(9));
            var b := Bank({9}, map[1 := a, 2 := c], [], 3, 1);
            Transfer(b, 9, TransferRequest(1, 2, 200.0, None)) == Err(InsufficientFunds)
  {
  }

  // ----- history -----

  /** getTransactionHistory (without the page slice): only the owner may read
      a card's history, which is the repository's newest-first query. */
  function GetTransactionHistory(b: Bank, userId: UserId, cardId: CardId): (r: Result<seq<CardTransaction>, Error>)
    ensures r.Err? <==> FindByIdAndOwnerId(b.cards, cardId, userId).None?
    ensures r.Err? ==> r.error == CardNotFoundOrAccessDenied(cardId)
    ensures r.Ok? ==> SortedDesc(r.value)
    ensures r.Ok? ==> forall t :: t in r.value <==> t in b.ledger && Involves(t, cardId)
    ensures r.Ok? ==> forall t :: multiset(r.value)[t] == if Involves(t, cardId) then multiset(b.ledger)[t] else 0
  {
    match FindByIdAndOwnerId(b.cards, cardId, userId)
    case None => Err(CardNotFoundOrAccessDenied(cardId))
    case Some(card) => Ok(FindAllByCardId(b.ledger, cardId))
  }

  /** The row a successful transfer appends shows up in the history of both
      cards, for their owner. */
  lemma TransferShowsInBothHistories(b: Bank, userId: UserId, req: TransferRequest)
    requires Transfer(b, userId, req).Ok?
    ensures var (b', tx) := Transfer(b, userId, req).value;
            && GetTransactionHistory(b', userId, req.fromCardId).Ok?
            && tx in GetTransactionHistory(b', userId, req.fromCardId).value
            && GetTransactionHistory(b', userId, req.toCardId).Ok?
            && tx in GetTransactionHistory(b', userId, req.toCardId).value
  {
    var (b', tx) := Transfer(b, userId, req).value;
    assert tx in b'.ledger by { assert b'.ledger[|b.ledger|] == tx; }
    assert b'.cards[req.fromCardId].owner == b.cards[req.fromCardId].owner;
    assert b'.cards[req.toCardId].owner == b.cards[req.toCardId].owner;
  }

  // ----- findings: the code as written against the evident intent -----

  predicate NonNegativeBalances(cards: map<CardId, Card>) {
    forall k :: k in cards ==> cards[k].balance >= 0.0
  }

  /** A negative amount passes every check and drives the receiver negative. */
  lemma NegativeAmountAsWritten()
    ensures var a := Card(Some(1), "#a", Some(100), Some(Active), 0.0, Some(9));
            var c := Card(Some(2), "#b", Some(100), Some(Active), 0.0, Some(9));
            var b := Bank({9}, map[1 := a, 2 := c], [], 3, 1);
            var r := Transfer(b, 9, TransferRequest(1, 2, -50.0, None));
            && NonNegativeBalances(b.cards)
            && r.Ok?
            && r.value.0.cards[2].balance == -50.0
            && !NonNegativeBalances(r.value.0.cards)
  {
  }

  /** A missing receiver is reported under the sender's id. */
  lemma MissingReceiverAsWritten()
    ensures var a := Card(Some(1), "#a", Some(100), Some(Active), 10.0, Some(9));
            var b := Bank({9}, map[1 := a], [], 2, 1);
            Transfer(b, 9, TransferRequest(1, 2, 5.0, None)) == Err(CardNotFoundOrAccessDenied(1))
  {
  }

  /** A blocked sender is reported with the receiver's ACTIVE status. */
  lemma InactiveSenderAsWritten()
    ensures var a := Card(Some(1), "#a", Some(100), Some(Blocked), 10.0, Some(9));
            var c := Card(Some(2), "#b", Some(100), Some(Active), 0.0, Some(9));
            var b := Bank({9}, map[1 := a, 2 := c], [], 3, 1);
            Transfer(b, 9, TransferRequest(1, 2, 5.0, None)) == Err(CardIsNotActive(Some(Active)))
  {
  }

  /** The transfer as evidently intended: each lookup reports the id it
      could not resolve, the inactive card reports its own status, and the
      amount must be positive and the cards distinct. */
  function TransferIntended(b: Bank, userId: UserId, req: TransferRequest): (r: Result<(Bank, CardTransaction), Error>)
    ensures FindByIdAndOwnerId(b.cards, req.fromCardId, userId).None? ==> r == Err(CardNotFoundOrAccessDenied(req.fromCardId))
    ensures (FindByIdAndOwnerId(b.cards, req.fromCardId, userId).Some? && FindByIdAndOwnerId(b.cards, req.toCardId, userId).None?)
              ==> r == Err(CardNotFoundOrAccessDenied(req.toCardId))
    ensures Owned(b, userId, req) && req.fromCardId == req.toCardId ==> r == Err(SameCard(req.fromCardId))
    ensures (Owned(b, userId, req) && req.fromCardId != req.toCardId && b.cards[req.fromCardId].status != Some(Active))
              ==> r == Err(CardIsNotActive(b.cards[req.fromCardId].status))
    ensures (&& Owned(b, userId, req) && req.fromCardId != req.toCardId
             && b.cards[req.fromCardId].status == Some(Active) && b.cards[req.toCardId].status != Some(Active))
              ==> r == Err(CardIsNotActive(b.cards[req.toCardId].status))
    ensures (Owned(b, userId, req) && BothActive(b, req) && req.fromCardId != req.toCardId && req.amount <= 0.0)
              ==> r == Err(NonPositiveAmount(req.amount))
    ensures (&& Owned(b, userId, req) && BothActive(b, req) && req.fromCardId != req.toCardId
             && 0.0 < req.amount && b.cards[req.fromCardId].balance < req.amount)
              ==> r == Err(InsufficientFunds)
    ensures r.Ok? <==> Owned(b, userId, req) && BothActive(b, req) && req.fromCardId != req.toCardId
                       && 0.0 < req.amount <= b.cards[req.fromCardId].balance
    ensures r.Ok? ==> Transferred(b, r.value.0, r.value.1, req)
  {
    match FindByIdAndOwnerId(b.cards, req.fromCardId, userId)
    case None => Err(CardNotFoundOrAccessDenied(req.fromCardId))
    case Some(from) =>
      match FindByIdAndOwnerId(b.cards, req.toCardId, userId)
      case None => Err(CardNotFoundOrAccessDenied(req.toCardId))
      case Some(to) =>
        if req.fromCardId == req.toCardId then Err(SameCard(req.fromCardId))
        else if from.status != Some(Active) then Err(CardIsNotActive(from.status))
        else if to.status != Some(Active) then Err(CardIsNotActive(to.status))
        else if req.amount <= 0.0 then Err(NonPositiveAmount(req.amount))
        else if from.balance < req.amount then Err(InsufficientFunds)
        else Ok(Apply(b, req))
  }

  /** The corrected transfer keeps every balance non-negative, and each error
      names a card that really is missing or really is inactive. */
  lemma {:induction false} TransferIntendedIsSafe(b: Bank, userId: UserId, req: TransferRequest)
    requires NonNegativeBalances(b.cards)
    ensures var r := TransferIntended(b, userId, req);
            && (r.Ok? ==> NonNegativeBalances(r.value.0.cards))
            && (r.Err? && r.error.CardNotFoundOrAccessDenied? ==>
                  r.error.cardId in {req.fromCardId, req.toCardId}
                  && FindByIdAndOwnerId(b.cards, r.error.cardId, userId).None?)
            && (r.Err? && r.error.CardIsNotActive? ==> r.error.status != Some(Active))
  {
    var r := TransferIntended(b, userId, req);
    if r.Ok? {
      var b' := r.value.0;
      forall k | k in b'.cards ensures b'.cards[k].balance >= 0.0 {
        if k == req.fromCardId {
        } else if k == req.toCardId {
        } else {
          assert b'.cards[k] == b.cards[k];
        }
      }
    }
  }
}

=== FILE: user_details.dfy ===
/** UserDetailsConfig: the security principal built from a user row. Roles
    are taken in the iteration order of the user's role collection; null
    roles are dropped; every role name becomes an authority carrying the
    "ROLE_" prefix exactly once. */
module UserDetailsConfig {
  import opened Wrappers
  import opened Entities
  import opened Errors

  datatype Role = Role(id: Option<int>, name: Option<string>)

  datatype User = User(
    id: Option<UserId>,
    username: Option<string>,
    password: Option<string>,
    roles: Option<seq<Option<Role>>>)

  datatype UserDetails = UserDetails(
    id: Option<UserId>,
    username: string,
    password: string,
    authorities: seq<string>)

  const RolePrefix: string := "ROLE_"

  predicate HasRolePrefix(s: string) {
    |s| >= |RolePrefix| && s[..|RolePrefix|] == RolePrefix
  }

  /** The authority for a role name: kept when it already has the prefix,
      prefixed otherwise. */
  function Authority(name: string): (r: string)
    ensures HasRolePrefix(r)
    ensures HasRolePrefix(name) ==> r == name
    ensures !HasRolePrefix(name) ==> r[|RolePrefix|..] == name
  {
    if HasRolePrefix(name) then name else RolePrefix + name
  }

  /** Normalising twice is normalising once. */
  lemma AuthorityIdempotent(name: string)
    ensures Authority(Authority(name)) == Authority(name)
  {
  }

  /** The non-null entries, in order. */
  function NonNull(roles: seq<Option<Role>>): (r: seq<Role>)
    ensures |r| <= |roles|
  {
    if roles == [] then []
    else (if roles[0].Some? then [roles[0].value] else []) + NonNull(roles[1..])
  }

  /** filter(nonNull).map(authority): the first role with a null name throws
      a NullPointerException when its name is dereferenced. */
  function Authorities(roles: seq<Option<Role>>): (r: Result<seq<string>, Error>)
    ensures r.Err? ==> r.error == NullDereference(None)
    ensures r.Ok? ==> |r.value| == |NonNull(roles)|
    ensures r.Ok? ==> forall i :: 0 <= i < |r.value| ==> HasRolePrefix(r.value[i])
  {
    if roles == [] then Ok([])
    else
      match Authorities(roles[1..])
      case Err(e) => Err(e)
      case Ok(rest) =>
        match roles[0]
        case None => Ok(rest)
        case Some(role) =>
          if role.name.None? then Err(NullDereference(None))
          else Ok([Authority(role.name.value)] + rest)
  }

  /** The mapping fails exactly when some non-null role has a null name, and
      otherwise gives the normalised name of each non-null role, in order. */
  lemma {:induction false} AuthoritiesMeaning(roles: seq<Option<Role>>)
    ensures Authorities(roles).Ok? <==> forall i :: 0 <= i < |roles| && roles[i].Some? ==> roles[i].value.name.Some?
    ensures Authorities(roles).Ok? ==>
              forall i :: 0 <= i < |NonNull(roles)| ==>
                NonNull(roles)[i].name.Some? && Authorities(roles).value[i] == Authority(NonNull(roles)[i].name.value)
  {
    if roles != [] {
      var tail := roles[1..];
      AuthoritiesMeaning(tail);
      assert forall i :: 1 <= i < |roles| ==> roles[i] == tail[i - 1];
      if roles[0].None? {
        assert NonNull(roles) == NonNull(tail);
      } else {
        assert NonNull(roles) == [roles[0].value] + NonNull(tail);
      }
    }
  }

  /** The constructor: a null user is an IllegalArgumentException, a null
      username or password a NullPointerException with its message, and
      null roles give no authorities. */
  function Build(user: Option<User>): (r: Result<UserDetails, Error>)
    ensures user.None? ==> r == Err(IllegalArgument("User cannot be null"))
    ensures user.Some? && user.value.username.None? ==> r == Err(NullDereference(Some("Username cannot be null")))
    ensures (user.Some? && user.value.username.Some? && user.value.password.None?)
              ==> r == Err(NullDereference(Some("Password cannot be null")))
    ensures (user.Some? && user.value.username.Some? && user.value.password.Some? && user.value.roles.None?)
              ==> r.Ok? && r.value.authorities == []
    ensures (user.Some? && user.value.username.Some? && user.value.password.Some? && user.value.roles.Some?)
              ==> && (r.Ok? <==> Authorities(user.value.roles.value).Ok?)
                  && (r.Ok? ==> r.value.authorities == Authorities(user.value.roles.value).value)
                  && (r.Err? ==> r == Err(NullDereference(None)))
    ensures r.Ok? ==>
              && user.Some?
              && Some(r.value.username) == user.value.username
              && Some(r.value.password) == user.value.password
              && r.value.id == user.value.id
              && forall i :: 0 <= i < |r.value.authorities| ==> HasRolePrefix(r.value.authorities[i])
  {
    if user.None? then Err(IllegalArgument("User cannot be null"))
    else
      var u := user.value;
      if u.username.None? then Err(NullDereference(Some("Username cannot be null")))
      else if u.password.None? then Err(NullDereference(Some("Password cannot be null")))
      else if u.roles.None? then Ok(UserDetails(u.id, u.username.value, u.password.value, []))
      else
        var auths :- Authorities(u.roles.value);
        Ok(UserDetails(u.id, u.username.value, u.password.value, auths))
  }

  /** The four account flags of every principal. */
  predicate IsAccountNonExpired(d: UserDetails) { true }
  predicate IsAccountNonLocked(d: UserDetails) { true }
  predicate IsCredentialsNonExpired(d: UserDetails) { true }
  predicate IsEnabled(d: UserDetails) { true }

  lemma AccountAlwaysUsable(d: UserDetails)
    ensures IsAccountNonExpired(d) && IsAccountNonLocked(d) && IsCredentialsNonExpired(d) && IsEnabled(d)
  {
  }

  lemma BuildExample()
    ensures var u := User(Some(1), Some("ann"), Some("h"),
                          Some([Some(Role(Some(1), Some("USER"))), None, Some(Role(Some(2), Some("ROLE_ADMIN")))]));
            Build(Some(u)) == Ok(UserDetails(Some(1), "ann", "h", ["ROLE_USER", "ROLE_ADMIN"]))
    ensures var u := User(Some(1), Some("ann"), Some("h"), Some([Some(Role(Some(3), None))]));
            Build(Some(u)) == Err(NullDereference(None))
  {
    var roles := [Some(Role(Some(1), Some("USER"))), None, Some(Role(Some(2), Some("ROLE_ADMIN")))];
    assert !HasRolePrefix("USER");
    assert HasRolePrefix("ROLE_ADMIN");
    assert roles[1..] == [None, Some(Role(Some(2), Some("ROLE_ADMIN")))];
    assert roles[1..][1..] == [Some(Role(Some(2), Some("ROLE_ADMIN")))];
    var last := roles[1..][1..];
    assert Authorities(last[1..]) == Ok([]);
    assert Authority("ROLE_ADMIN") == "ROLE_ADMIN";
    assert last[0].value.name == Some("ROLE_ADMIN");
    var admin: seq<string> := [Authority("ROLE_ADMIN")] + [];
    assert Authorities(last) == Ok(admin);
    assert admin == ["ROLE_ADMIN"];
    assert Authority("USER") == "ROLE_USER" by {
      assert RolePrefix + "USER" == "ROLE_USER";
    }
    var both: seq<string> := [Authority("USER")] + admin;
    assert both == ["ROLE_USER", "ROLE_ADMIN"];
    assert Authorities(roles[1..]) == Ok(["ROLE_ADMIN"]);
    assert Authorities(roles) == Ok(["ROLE_USER", "ROLE_ADMIN"]);
  }
}

=== FILE: wrappers.dfy ===
/** Failure-compatible carriers used throughout the model: `Option` stands for a
    Java reference that may be null, `Result` for a call that either returns a
    value or throws one of the exceptions of the `Errors` module. */
module Wrappers {

  datatype Option<+T> = None | Some(value: T) {
    function GetOr(default: T): T {
      match this
      case Some(v) => v
      case None => default
    }
  }

  datatype Result<+T, +E> = Ok(value: T) | Err(error: E) {
    predicate IsFailure() {
      Err?
    }

    function PropagateFailure<U>(): Result<U, E>
      requires Err?
    {
      Err(error)
    }

    function Extract(): T
      requires Ok?
    {
      value
    }
  }
}
